=== FILE: README.md ===
# Sqliteman SQL utilities, modelled in Dafny

This project models the logic of `Utils` in Sqliteman, a Qt front end for
SQLite. It covers three parts:

- **Quoting and LIKE escaping.**
  - The three `Utils::q` overloads double a delimiter inside a text and wrap the text in it.
  - `Utils::like` and `Utils::startswith` turn user text into a LIKE string literal with an `ESCAPE '@'` clause.
- **Statement classification.** `Utils::updateObjectTree` and `Utils::updateTables` decide whether executed SQL needs the schema tree or the table data refreshed.
- **Column-width allocation.** This is the arithmetic of `Utils::setColumnWidths`, taken as a pure computation from the wanted column widths and the viewport width.

Files and the modules they declare:

- `qtstring.dfy`:
  - `QtString` models the QString operations the code uses: null strings, `replace` with a one-character pattern, `QStringList::join`, `trimmed`, `toUpper` and `contains`. Whitespace and upper-casing are ASCII.
  - `Optional` is a small option type.
- `quoting.dfy`, module `Quoting`:
  - It models `q` in all three overloads.
  - It also holds a reader for a delimited SQL token, written independently of `q`: a doubled delimiter stands for one delimiter character and a single one closes the token. The round trips are proved against this reader.
- `like.dfy`, module `LikeEscaping`:
  - It models `like` and `startswith`, and how the database reads what they build: first the string literal, then the LIKE pattern inside it with `@` as escape character.
  - It also holds the corrected escaping described under Findings.
- `classifier.dfy`, module `Classifier`: it models `updateObjectTree` and `updateTables`, and their truth conditions stated on the raw text.
- `columnwidths.dfy`, module `ColumnWidths`:
  - The two allocation loops, as methods carrying loop invariants.
  - Reference definitions of what the loops compute for each column.
  - The proportional scale-up at the end, with its bounds.

Two behaviours of the code are worth stating plainly, and the model follows both:

- The list overload of `q` delimits each item separately (`"a", "b"`, utils.cpp:100). It does not delimit the joined list once.
- When the wanted widths add up to at least the viewport width, the assigned widths are set unchanged (utils.cpp:199-205). They are not scaled down to fit. For wanted widths 10 and 1000 in a viewport of 100 the columns get 10 and 321.

## Model

| member | source | states |
|---|---|---|
| Quoting.Quote | Sqliteman/sqliteman/utils.cpp:84-87 | q(s, c) begins and ends with c, and reading it as a delimited token gives back exactly s |
| Quoting.QuoteIdent | Sqliteman/sqliteman/utils.cpp:89-92 | q(s) is a double-quoted token that reads back as s; a text with no double quote is simply wrapped in them |
| Quoting.QuoteUnquoteInverse | Sqliteman/sqliteman/utils.cpp:84-87 | a text reads back as the token s if and only if it is q(s, c); quoting is injective and its reader inverts it |
| Quoting.ReadDelimitedInverse | Sqliteman/sqliteman/utils.cpp:84-87 | whatever the reader accepts is the doubled form of the token, a closing delimiter, and a rest that does not start with the delimiter |
| Quoting.QuotedTokenIsSelfDelimiting | Sqliteman/sqliteman/utils.cpp:84-87 | q(s, c) spliced in front of any text not starting with c is read back as s, and reading resumes right after it |
| Quoting.QuoteList | Sqliteman/sqliteman/utils.cpp:94-101 | the list form begins and ends with the delimiter |
| Quoting.DoubledAll | Sqliteman/sqliteman/utils.cpp:96-99 | the loop leaves one item per input item, each with every delimiter doubled |
| Quoting.QuoteListQuotesEachItem | Sqliteman/sqliteman/utils.cpp:94-101 | for a non-empty list, q(l, c) equals the items quoted one by one and joined with ", "; for an empty list it is two delimiters |
| LikeEscaping.LikeEscape | Sqliteman/sqliteman/utils.cpp:121-124 | definition: the four replace passes in source order; what they amount to is stated in LikeEscapeIsPerCharacter |
| LikeEscaping.LikeEscapeIsPerCharacter | Sqliteman/sqliteman/utils.cpp:121-124 | the four replace passes together act character by character: ' becomes '', @ becomes @@, _ becomes @@_, % becomes @@%, all else unchanged |
| LikeEscaping.Like | Sqliteman/sqliteman/utils.cpp:118-126 | like(s) is '% followed by the per-character escaping of s followed by %' ESCAPE '@' |
| LikeEscaping.StartsWith | Sqliteman/sqliteman/utils.cpp:128-136 | startswith(s) is ' followed by the same escaping followed by %' ESCAPE '@' |
| LikeEscaping.LikeIsStartsWithUnanchored | Sqliteman/sqliteman/utils.cpp:118-136 | like(s) is startswith(s) with one % inserted right after the opening quote |
| LikeEscaping.LikeReadsBack | Sqliteman/sqliteman/utils.cpp:118-126 | the database reads like(s) as one string literal holding "%", the @-escaped text and "%", followed by the ESCAPE clause |
| LikeEscaping.LikePatternAsWritten | Sqliteman/sqliteman/utils.cpp:118-126 | the pattern like(s) hands to LIKE reads as: any run, then for each character of s a literal, except that _ and % become a literal @ followed by a wildcard, then any run |
| LikeEscaping.StartsWithReadsBack | Sqliteman/sqliteman/utils.cpp:128-136 | the database reads startswith(s) as one string literal holding the @-escaped text and "%", followed by the ESCAPE clause |
| LikeEscaping.StartsWithPatternAsWritten | Sqliteman/sqliteman/utils.cpp:128-136 | the pattern startswith(s) hands to LIKE reads as the same items, then any run |
| LikeEscaping.LikeUnderscoreIsNotLiteral | Sqliteman/sqliteman/utils.cpp:122-124 | like("_") searches for %@@_%, which matches a literal @ followed by any character, and not for a literal _ |
| LikeEscaping.StartsWithPercentIsNotLiteral | Sqliteman/sqliteman/utils.cpp:131-134 | startswith("%") searches for @@%%, which matches a literal @ followed by anything, and not a leading literal % |
| LikeEscaping.LikeIntended | Sqliteman/sqliteman/utils.cpp:118-126 | with @ doubled first, the literal reads back as a pattern of any run, every character of s literally, any run |
| LikeEscaping.StartsWithIntended | Sqliteman/sqliteman/utils.cpp:128-136 | with @ doubled first, the pattern is every character of s literally, then any run |
| QtString.TrimmedSurrounded | Sqliteman/sqliteman/utils.cpp:60 | trimming a text with whitespace added on both sides gives the same as trimming the text |
| Classifier.UpdateObjectTree | Sqliteman/sqliteman/utils.cpp:56-67 | definition on the trimmed, upper-cased text; its truth condition on the raw text is UpdateObjectTreeCondition |
| Classifier.UpdateTables | Sqliteman/sqliteman/utils.cpp:69-82 | definition on the trimmed, upper-cased text; its truth condition on the raw text is UpdateTablesCondition |
| Classifier.KeywordAfterTrim | Sqliteman/sqliteman/utils.cpp:60-65 | the trimmed, upper-cased text starts with a keyword exactly when the raw text, after optional whitespace, starts with it in any letter case |
| Classifier.KeywordAnywhereAfterTrim | Sqliteman/sqliteman/utils.cpp:60-66 | the trimmed, upper-cased text contains a keyword exactly when the upper-cased raw text does |
| Classifier.UpdateObjectTreeCondition | Sqliteman/sqliteman/utils.cpp:56-67 | false for a null string; otherwise true exactly when the raw text, after optional whitespace, opens with ALTER, ATTACH, CREATE, DETACH or DROP in any case, or mentions EXEC in any case |
| Classifier.UpdateTablesCondition | Sqliteman/sqliteman/utils.cpp:69-82 | false for a null string; otherwise true exactly when the raw text opens with ALTER, DELETE, DETACH, DROP, INSERT, REPLACE or UPDATE, or mentions EXEC, ignoring leading whitespace and case |
| Classifier.IgnoresSpaceAndCase | Sqliteman/sqliteman/utils.cpp:56-82 | both predicates give the same answer for a statement with whitespace added around it and with its letters in another case |
| Classifier.BothWhenSharedKeyword | Sqliteman/sqliteman/utils.cpp:56-82 | a statement needs both refreshes exactly when it starts with ALTER, DETACH or DROP, or contains EXEC |
| Classifier.SelectNeedsNoRefresh | Sqliteman/sqliteman/utils.cpp:56-82 | a statement starting with SELECT and not containing EXEC needs neither refresh |
| Classifier.CreateExample | Sqliteman/sqliteman/utils.cpp:56-67 | "create table t(x)" refreshes the schema tree |
| Classifier.UpdateExample | Sqliteman/sqliteman/utils.cpp:69-82 | "  update t" refreshes table data and not the schema tree |
| Classifier.SelectExample | Sqliteman/sqliteman/utils.cpp:56-82 | "select x" refreshes nothing |
| Classifier.EmptyExample | Sqliteman/sqliteman/utils.cpp:56-82 | the empty and the null statement refresh nothing |
| ColumnWidths.Isqrt | Sqliteman/sqliteman/utils.cpp:178-179 | the truncated square root r of n satisfies r*r <= n < (r+1)*(r+1) |
| ColumnWidths.IsqrtUnique | Sqliteman/sqliteman/utils.cpp:178-179 | that r is the only such number |
| ColumnWidths.WidthLeftAt | Sqliteman/sqliteman/utils.cpp:173-188 | widthLeft stays between 0 and the viewport width throughout the second loop |
| ColumnWidths.WidthLeftStaysPositive | Sqliteman/sqliteman/utils.cpp:181-184 | with a non-empty viewport widthLeft never reaches 0, since the small columns leave at least half of it and a large column is subtracted only when something remains |
| ColumnWidths.ColumnsLeftPositive | Sqliteman/sqliteman/utils.cpp:178-179 | when the second loop reaches a large column, columnsLeft is at least 1, so its division is defined |
| ColumnWidths.HalfBound | Sqliteman/sqliteman/utils.cpp:148 | half is non-negative and half for every column together is at most the viewport width |
| ColumnWidths.Assigned | Sqliteman/sqliteman/utils.cpp:158-188 | a small column gets exactly its wanted width; any other gets at least half and never more than it wants |
| ColumnWidths.GiveSmallColumns | Sqliteman/sqliteman/utils.cpp:158-169 | after the first loop small columns hold their wanted width, the others are marked 0, and widthLeft, widthUsed and columnsLeft account for the small columns |
| ColumnWidths.GiveLargeColumns | Sqliteman/sqliteman/utils.cpp:170-188 | the second loop gives every marked column its compressed share and leaves widthUsed equal to the sum of all wanted widths |
| ColumnWidths.AssignWidths | Sqliteman/sqliteman/utils.cpp:141-188 | both loops together give every column its assigned width and make widthUsed the sum of the wanted widths |
| ColumnWidths.Allocation | Sqliteman/sqliteman/utils.cpp:158-188 | one width per column; each column gets between 0 and what it wants, a small column exactly what it wants, any other at least half; together they take no more than the wanted widths add up to |
| ColumnWidths.FinalWidths | Sqliteman/sqliteman/utils.cpp:189-205 | definition: the allocation scaled by view / Sum(ws) when the sum falls short of the viewport, else the allocation; its bounds are FinalWidthsFit |
| ColumnWidths.FinalWidthsFit | Sqliteman/sqliteman/utils.cpp:189-205 | when the wanted widths fall short of the viewport, no column shrinks under scaling and the columns fit in the viewport; otherwise they keep their assigned widths |
| ColumnWidths.SetColumnWidths | Sqliteman/sqliteman/utils.cpp:141-205 | the widths set on the columns are the final widths, with the same fit and growth guarantees |
| ColumnWidths.ScaledFits | Sqliteman/sqliteman/utils.cpp:192-197 | widths adding up to at most widthUsed, each scaled by widthView / widthUsed with truncation, add up to at most widthView |
| ColumnWidths.ScaledGrows | Sqliteman/sqliteman/utils.cpp:196 | scaling by widthView / widthUsed when widthUsed < widthView never narrows a column |
| ColumnWidths.ColumnsLeftAsWrittenLags | Sqliteman/sqliteman/utils.cpp:166-187 | as written, the second loop also visits zero-width columns, so columnsLeft falls one behind the large columns still to come for every zero-width column passed |
| ColumnWidths.ZeroWidthBreaksDivision | Sqliteman/sqliteman/utils.cpp:173-187 | as written, the last large column divides by a columnsLeft of at most 0 once a zero-width column came before it |
| ColumnWidths.ZeroWidthColumnExample | Sqliteman/sqliteman/utils.cpp:148-187 | wanted widths 0 and 1000 in a viewport of 100 reach column 1 with columnsLeft 0 |
| ColumnWidths.SmallerColumnSmallerShareExample | Sqliteman/sqliteman/utils.cpp:170-188 | wanted widths 350 and 300 in a viewport of 400 end up as 323 and 200, so the larger column gets the larger proportion of what it wants |
| ColumnWidths.TwoColumnExample | Sqliteman/sqliteman/utils.cpp:141-205 | wanted widths 10 and 1000 in a viewport of 100 end up as 10 and 321 |

## Left out

- Icon, pixmap and translation lookup (`getIcon`, `getPixmap`, `getTranslator`, utils.cpp:29-54): pixmap-cache and file-path plumbing around build-time directories.
- The debugging helpers (`dump` overloads and the `...ToString` helpers, utils.cpp:208-533): they only write to the Qt debug log.
- `unQuote` (utils.cpp:103-116) is compiled out. The model has its own token reader, `Quoting.ReadDelimited`.
- The widget side of `setColumnWidths` is not modelled: reading the viewport width, `resizeColumnsToContents`, `columnWidth`, and the `setColumnWidth` calls. The wanted widths and the viewport width are parameters, and the widths set are the result.
- ColumnWidths.Isqrt: the source converts the quotient to a double, takes `qSqrt` and truncates. The model uses the integer floor square root, which gives the same value for any quotient below 2^52.
- ColumnWidths.AssignWidths: integers are unbounded. The 32-bit overflow of `(w - half) * widthLeft` for very wide columns and viewports is not modelled.
- ColumnWidths.Valid: the model needs at least one column, because line 148 divides by twice the column count. It also needs every wanted width to be positive. As written, a column that wants width 0 (a hidden column, say) makes line 179 divide by zero; this is recorded under Findings. With all widths positive, widthUsed is positive at line 196.
- ColumnWidths.GiveLargeColumns: the comment at utils.cpp:170-171 says the second loop gives smaller columns a larger proportion of what they want. The code does not keep that promise, so no contract states it. Each large column takes its share of what the earlier ones left, which makes the result depend on column order. SmallerColumnSmallerShareExample gives a case where the larger column gets the larger proportion. The comment names no exact rule to prove a corrected allocator against, so none is modelled.
- Quoting.Quote: the delimiter is one character. The source accepts any QString as delimiter; the model assumes a one-character one, as in the default `"`. The null QString is not distinguished from the empty text here, since `q` treats both alike.
- QtString.Trimmed: whitespace is ASCII space, tab, line feed, vertical tab, form feed and carriage return. QChar's Unicode whitespace is not modelled.
- QtString.UpperChar: upper-casing is ASCII only. QString's Unicode case mapping is not modelled.
- The query editor, terms tab, table editor and create-view dialogs: `queryeditordialog.h`, `termstabwidget.h`, `tableeditordialog.h` and `createviewdialog.h` hold only declarations, and their implementations are not part of this model.
- `vacuumdialog.cpp` is not modelled: it stores preferences and runs statements against a live database. `utils.h` holds declarations only.

## Findings

| source | as written | input that shows it | evidently intended | confidence | as-written member | corrected member |
|---|---|---|---|---|---|---|
| Sqliteman/sqliteman/utils.cpp:118-126 | the `@` pass runs after the `_` and `%` passes, so `_` becomes `@@_` and `%` becomes `@@%`, which under ESCAPE '@' is a literal `@` followed by a wildcard | `like("_")` yields `'%@@_%' ESCAPE '@'`, which matches `"x@y"` and does not match `"a_b"` | double `@` first, so `_` becomes `@_` and `%` becomes `@%` and the pattern matches the text literally | high (not executed) | LikeEscaping.LikeUnderscoreIsNotLiteral | LikeEscaping.LikeIntended |
| Sqliteman/sqliteman/utils.cpp:128-136 | the same pass order in `startswith` | `startswith("%")` yields `'@@%%' ESCAPE '@'`, which matches `"@x"` and does not match `"%x"` | the same reordering | high (not executed) | LikeEscaping.StartsWithPercentIsNotLiteral | LikeEscaping.StartsWithIntended |
| Sqliteman/sqliteman/utils.cpp:170-188 | the second loop takes `gotWidths[i] == 0` to mean "large column", but a column that wants width 0 also holds 0 there, while `columnsLeft` counts only the large columns. Such a column is visited again, and line 178 then takes `qSqrt` of a negative number, whose NaN result is converted to `int` (undefined behaviour in C++) | wanted widths 0 and 1000 in a viewport of 100: half is 25, column 0 is visited a second time, and column 1 computes `(975 * 100) / 0` at line 179 | visit exactly the columns wider than half, so `columnsLeft` is at least 1 at every division | high for a zero-width column such as a hidden one (not executed) | ColumnWidths.ZeroWidthBreaksDivision | ColumnWidths.ColumnsLeftPositive |

=== FILE: classifier.dfy ===
/**
  Classification of executed SQL text: Utils::updateObjectTree (does the
  schema tree need refreshing?) and Utils::updateTables (does table data
  need refreshing?). Both look at the trimmed, upper-cased text: a leading
  keyword from a fixed list, or "EXEC" anywhere.
 */
module Classifier {
  import opened QtString

  /** The text both predicates examine: trimmed, then upper-cased. */
  function Normalized(sql: string): string {
    ToUpper(Trimmed(sql))
  }

  /** Utils::updateObjectTree. */
  predicate UpdateObjectTree(sql: QStr) {
    if sql.Null? then false
    else
      var tmp := Normalized(sql.text);
      || "ALTER" <= tmp
      || "ATTACH" <= tmp
      || "CREATE" <= tmp
      || "DETACH" <= tmp
      || "DROP" <= tmp
      || Contains(tmp, "EXEC")
  }

  /** Utils::updateTables. */
  predicate UpdateTables(sql: QStr) {
    if sql.Null? then false
    else
      var tmp := Normalized(sql.text);
      || "ALTER" <= tmp
      || "DELETE" <= tmp
      || "DETACH" <= tmp
      || "DROP" <= tmp
      || "INSERT" <= tmp
      || "REPLACE" <= tmp
      || "UPDATE" <= tmp
      || Contains(tmp, "EXEC")
  }

  /** A keyword: non-empty and free of whitespace. */
  predicate IsKeyword(k: string) {
    |k| > 0 && forall j :: 0 <= j < |k| ==> !IsSpace(k[j])
  }

  /** After optional whitespace, the raw text begins with `k` in any
      letter case. */
  ghost predicate OpensWith(sql: string, k: string) {
    exists a :: 0 <= a <= |sql| && AllSpace(sql[..a]) && k <= ToUpper(sql[a..])
  }

  /** The raw text contains "EXEC" in any letter case. */
  predicate MentionsExec(sql: string) {
    Contains(ToUpper(sql), "EXEC")
  }

  /** A prefix fixes the characters it covers. */
  lemma PrefixAt(k: string, t: string, j: int)
    requires 0 <= j < |k|
    ensures k <= t ==> j < |t| && t[j] == k[j]
  {
  }

  /** `k` is a prefix of `u[a..]` exactly when `u` holds `k` at `a`. */
  lemma PrefixOccurs(u: string, k: string, a: int)
    requires 0 <= a <= |u|
    ensures k <= u[a..] <==> OccursAt(u, k, a)
  {
    if k <= u[a..] {
      assert u[a..a + |k|] == u[a..][..|k|];
    }
    if OccursAt(u, k, a) {
      assert u[a..][..|k|] == u[a..a + |k|];
    }
  }

  /** The normalized text is the upper-cased slice of `sql` between its
      leading and its trailing whitespace. */
  lemma NormalizedSlice(sql: string) returns (n: nat, e: nat)
    ensures n <= e <= |sql|
    ensures Normalized(sql) == ToUpper(sql)[n..e]
    ensures AllSpace(sql[..n]) && AllSpace(sql[e..])
    ensures n < e ==> !IsSpace(sql[n]) && !IsSpace(sql[e - 1])
  {
    n := LeadingSpaces(sql);
    e := if n == |sql| then n else TrailingStart(sql);
    assert Trimmed(sql) == sql[n..e];
    ToUpperSlice(sql, n, e);
  }

  /** An occurrence in a slice is an occurrence in the whole. */
  lemma ContainsFromSlice(u: string, n: int, e: int, k: string)
    requires 0 <= n <= e <= |u|
    requires Contains(u[n..e], k)
    ensures Contains(u, k)
  {
    var i := ContainsOccurs(u[n..e], k);
    var v, w := u[n + i..n + i + |k|], u[n..e][i..i + |k|];
    assert v == w by {
      forall j | 0 <= j < |k| ensures v[j] == w[j] {
        assert u[n..e][i + j] == u[n + i + j];
      }
    }
    OccursContains(u, k, n + i);
  }

  /** An occurrence that lies within a slice is an occurrence in the slice. */
  lemma ContainsInSlice(u: string, n: int, e: int, k: string, i: int)
    requires 0 <= n <= i && i + |k| <= e <= |u|
    requires OccursAt(u, k, i)
    ensures Contains(u[n..e], k)
  {
    var v, w := u[n..e][i - n..i - n + |k|], u[i..i + |k|];
    assert v == w by {
      forall j | 0 <= j < |k| ensures v[j] == w[j] {
        assert u[n..e][i - n + j] == u[i + j];
      }
    }
    OccursContains(u[n..e], k, i - n);
  }

  /** A keyword found in the upper-cased text sits on non-whitespace
      characters of the original. */
  lemma KeywordEnds(sql: string, k: string, i: int)
    requires IsKeyword(k) && OccursAt(ToUpper(sql), k, i)
    ensures !IsSpace(sql[i]) && !IsSpace(sql[i + |k| - 1])
  {
    var u := ToUpper(sql);
    assert u[i..i + |k|][0] == u[i];
    assert u[i..i + |k|][|k| - 1] == u[i + |k| - 1];
  }

  /** Between whitespace-only margins [..n] and [e..], a run of
      non-whitespace characters from i to last lies inside [n, e). */
  lemma InsideMargins(sql: string, n: int, e: int, i: int, last: int)
    requires 0 <= n <= e <= |sql| && AllSpace(sql[..n]) && AllSpace(sql[e..])
    requires 0 <= i <= last < |sql| && !IsSpace(sql[i]) && !IsSpace(sql[last])
    ensures n <= i && last < e
  {
  }

  lemma KeywordAfterTrimForward(sql: string, k: string)
    requires IsKeyword(k)
    requires k <= Normalized(sql)
    ensures OpensWith(sql, k)
  {
    var n, e := NormalizedSlice(sql);
    var u := ToUpper(sql);
    SlicePrefixOccurs(u, k, n, e);
    PrefixOccurs(u, k, n);
    ToUpperSlice(sql, n, |sql|);
    assert 0 <= n <= |sql| && AllSpace(sql[..n]) && k <= ToUpper(sql[n..]);
  }

  /** A prefix of the slice u[n..e] occurs in u at n. */
  lemma SlicePrefixOccurs(u: string, k: string, n: int, e: int)
    requires 0 <= n <= e <= |u| && k <= u[n..e]
    ensures OccursAt(u, k, n)
  {
    assert u[n..e][..|k|] == u[n..n + |k|];
  }

  lemma KeywordAfterTrimBackward(sql: string, k: string, a: int)
    requires IsKeyword(k)
    requires 0 <= a <= |sql| && AllSpace(sql[..a]) && k <= ToUpper(sql[a..])
    ensures k <= Normalized(sql)
  {
    var u := ToUpper(sql);
    ToUpperSlice(sql, a, |sql|);
    PrefixOccurs(u, k, a);
    KeywordEnds(sql, k, a);
    var n, e := NormalizedSlice(sql);
    InsideMargins(sql, n, e, a, a + |k| - 1);
    InsideMargins(sql, a, |sql|, n, n);
    assert u[n..e][..|k|] == u[a..a + |k|];
  }

  /** Trimming does not change what a keyword prefix test sees. */
  lemma KeywordAfterTrim(sql: string, k: string)
    requires IsKeyword(k)
    ensures k <= Normalized(sql) <==> OpensWith(sql, k)
  {
    if k <= Normalized(sql) {
      KeywordAfterTrimForward(sql, k);
    }
    if OpensWith(sql, k) {
      var a :| 0 <= a <= |sql| && AllSpace(sql[..a]) && k <= ToUpper(sql[a..]);
      KeywordAfterTrimBackward(sql, k, a);
    }
  }

  /** Trimming does not change whether a keyword occurs. */
  lemma KeywordAnywhereAfterTrim(sql: string, k: string)
    requires IsKeyword(k)
    ensures Contains(Normalized(sql), k) <==> Contains(ToUpper(sql), k)
  {
    if Contains(Normalized(sql), k) {
      var u := ToUpper(sql);
      var n, e := NormalizedSlice(sql);
      ContainsFromSlice(u, n, e, k);
    }
    if Contains(ToUpper(sql), k) {
      KeywordAnywhereBackward(sql, k);
    }
  }

  /** A keyword in the upper-cased raw text lies inside the trimmed part. */
  lemma KeywordAnywhereBackward(sql: string, k: string)
    requires IsKeyword(k) && Contains(ToUpper(sql), k)
    ensures Contains(Normalized(sql), k)
  {
    var u := ToUpper(sql);
    var n, e := NormalizedSlice(sql);
    var i := ContainsOccurs(u, k);
    KeywordEnds(sql, k, i);
    InsideMargins(sql, n, e, i, i + |k| - 1);
    ContainsInSlice(u, n, e, k, i);
  }

  /** The statement keywords the predicates test for. */
  lemma KeywordsAreKeywords()
    ensures IsKeyword("ALTER") && IsKeyword("ATTACH") && IsKeyword("CREATE")
    ensures IsKeyword("DELETE") && IsKeyword("DETACH") && IsKeyword("DROP")
    ensures IsKeyword("INSERT") && IsKeyword("REPLACE") && IsKeyword("UPDATE")
    ensures IsKeyword("EXEC")
  {
  }

  /** The keywords updateObjectTree tests for. */
  lemma SchemaKeywordFacts(s: string)
    ensures "ALTER" <= Normalized(s) <==> OpensWith(s, "ALTER")
    ensures "ATTACH" <= Normalized(s) <==> OpensWith(s, "ATTACH")
    ensures "CREATE" <= Normalized(s) <==> OpensWith(s, "CREATE")
    ensures "DETACH" <= Normalized(s) <==> OpensWith(s, "DETACH")
    ensures "DROP" <= Normalized(s) <==> OpensWith(s, "DROP")
    ensures Contains(Normalized(s), "EXEC") <==> MentionsExec(s)
  {
    KeywordsAreKeywords();
    KeywordAfterTrim(s, "ATTACH");
    KeywordAfterTrim(s, "CREATE");
    SharedKeywordFacts(s);
  }

  /** The keywords only updateTables tests for. */
  lemma TableKeywordFactsDml(s: string)
    ensures "DELETE" <= Normalized(s) <==> OpensWith(s, "DELETE")
    ensures "INSERT" <= Normalized(s) <==> OpensWith(s, "INSERT")
    ensures "REPLACE" <= Normalized(s) <==> OpensWith(s, "REPLACE")
    ensures "UPDATE" <= Normalized(s) <==> OpensWith(s, "UPDATE")
  {
    KeywordsAreKeywords();
    KeywordAfterTrim(s, "DELETE");
    KeywordAfterTrim(s, "INSERT");
    KeywordAfterTrim(s, "REPLACE");
    KeywordAfterTrim(s, "UPDATE");
  }

  /** The keywords both predicates test for. */
  lemma SharedKeywordFacts(s: string)
    ensures "ALTER" <= Normalized(s) <==> OpensWith(s, "ALTER")
    ensures "DETACH" <= Normalized(s) <==> OpensWith(s, "DETACH")
    ensures "DROP" <= Normalized(s) <==> OpensWith(s, "DROP")
    ensures Contains(Normalized(s), "EXEC") <==> MentionsExec(s)
  {
    KeywordsAreKeywords();
    KeywordAfterTrim(s, "ALTER");
    KeywordAfterTrim(s, "DETACH");
    KeywordAfterTrim(s, "DROP");
    KeywordAnywhereAfterTrim(s, "EXEC");
  }

  /** updateObjectTree in terms of the raw text: false for a null string,
      otherwise true exactly when, after optional whitespace, the text opens
      with ALTER, ATTACH, CREATE, DETACH or DROP, or it mentions EXEC, in
      any letter case. */
  lemma UpdateObjectTreeCondition(sql: QStr)
    ensures UpdateObjectTree(sql) <==>
      && sql.Str?
      && (|| OpensWith(sql.text, "ALTER")
          || OpensWith(sql.text, "ATTACH")
          || OpensWith(sql.text, "CREATE")
          || OpensWith(sql.text, "DETACH")
          || OpensWith(sql.text, "DROP")
          || MentionsExec(sql.text))
  {
    if sql.Str? {
      SchemaKeywordFacts(sql.text);
    }
  }

  /** updateTables in terms of the raw text: false for a null string,
      otherwise true exactly when, after optional whitespace, the text opens
      with ALTER, DELETE, DETACH, DROP, INSERT, REPLACE or UPDATE, or it
      mentions EXEC, in any letter case. */
  lemma UpdateTablesCondition(sql: QStr)
    ensures UpdateTables(sql) <==>
      && sql.Str?
      && (|| OpensWith(sql.text, "ALTER")
          || OpensWith(sql.text, "DELETE")
          || OpensWith(sql.text, "DETACH")
          || OpensWith(sql.text, "DROP")
          || OpensWith(sql.text, "INSERT")
          || OpensWith(sql.text, "REPLACE")
          || OpensWith(sql.text, "UPDATE")
          || MentionsExec(sql.text))
  {
    if sql.Str? {
      TableKeywordFactsDml(sql.text);
      SharedKeywordFacts(sql.text);
    }
  }

  /** Leading whitespace counts the same in upper and lower case. */
  lemma {:induction false} LeadingSpacesUpper(s: string)
    ensures LeadingSpaces(ToUpper(s)) == LeadingSpaces(s)
    decreases |s|
  {
    if |s| > 0 {
      assert ToUpper(s)[1..] == ToUpper(s[1..]);
      LeadingSpacesUpper(s[1..]);
    }
  }

  lemma {:induction false} TrailingStartUpper(s: string)
    ensures TrailingStart(ToUpper(s)) == TrailingStart(s)
    decreases |s|
  {
    if |s| > 0 {
      assert ToUpper(s)[..|s| - 1] == ToUpper(s[..|s| - 1]);
      TrailingStartUpper(s[..|s| - 1]);
    }
  }

  /** Upper-casing and trimming commute. */
  lemma TrimmedUpper(s: string)
    ensures Trimmed(ToUpper(s)) == ToUpper(Trimmed(s))
  {
    LeadingSpacesUpper(s);
    TrailingStartUpper(s);
    var n := LeadingSpaces(s);
    if n < |s| {
      ToUpperSlice(s, n, TrailingStart(s));
    }
  }

  /** Both predicates ignore whitespace around the statement and the letter
      case of the statement. */
  lemma IgnoresSpaceAndCase(p: string, m: string, q: string, m': string)
    requires AllSpace(p) && AllSpace(q)
    requires ToUpper(m) == ToUpper(m')
    ensures UpdateObjectTree(Str(p + m + q)) == UpdateObjectTree(Str(m'))
    ensures UpdateTables(Str(p + m + q)) == UpdateTables(Str(m'))
  {
    TrimmedSurrounded(p, m, q);
    TrimmedUpper(m);
    TrimmedUpper(m');
    assert Normalized(p + m + q) == Normalized(m');
  }

  /** A statement needs both refreshes exactly when it is an ALTER, DETACH
      or DROP, or mentions EXEC. */
  lemma BothWhenSharedKeyword(sql: QStr)
    ensures UpdateObjectTree(sql) && UpdateTables(sql) <==>
      sql.Str? &&
      (var tmp := Normalized(sql.text);
       "ALTER" <= tmp || "DETACH" <= tmp || "DROP" <= tmp || Contains(tmp, "EXEC"))
  {
    if sql.Str? {
      var tmp := Normalized(sql.text);
      PrefixAt("ATTACH", tmp, 1);
      PrefixAt("CREATE", tmp, 0);
      PrefixAt("ALTER", tmp, 1);
      PrefixAt("DELETE", tmp, 0);
      PrefixAt("DETACH", tmp, 0);
      PrefixAt("DROP", tmp, 0);
      PrefixAt("INSERT", tmp, 0);
      PrefixAt("REPLACE", tmp, 0);
      PrefixAt("UPDATE", tmp, 0);
    }
  }

  /** A SELECT that does not mention EXEC needs no refresh. */
  lemma SelectNeedsNoRefresh(sql: string)
    requires "SELECT" <= Normalized(sql)
    requires !Contains(Normalized(sql), "EXEC")
    ensures !UpdateObjectTree(Str(sql)) && !UpdateTables(Str(sql))
  {
    var tmp := Normalized(sql);
    PrefixAt("SELECT", tmp, 0);
    PrefixAt("ALTER", tmp, 0);
    PrefixAt("ATTACH", tmp, 0);
    PrefixAt("CREATE", tmp, 0);
    PrefixAt("DELETE", tmp, 0);
    PrefixAt("DETACH", tmp, 0);
    PrefixAt("DROP", tmp, 0);
    PrefixAt("INSERT", tmp, 0);
    PrefixAt("REPLACE", tmp, 0);
    PrefixAt("UPDATE", tmp, 0);
  }

  lemma CreateExample()
    ensures UpdateObjectTree(Str("create table t(x)"))
  {
    var s := "create table t(x)";
    var n, e := NormalizedSlice(s);
    assert LeadingSpaces(s) == 0;
    assert Normalized(s)[..6] == "CREATE";
  }

  lemma UpdateNormalized()
    ensures Normalized("  update t") == "UPDATE T"
  {
    var s := "  update t";
    var n, e := NormalizedSlice(s);
    assert LeadingSpaces(s) == 2;
    assert TrailingStart(s) == |s|;
  }

  /** "UPDATE T" holds no EXEC. */
  lemma UpdateHasNoExec()
    ensures !Contains("UPDATE T", "EXEC")
  {
    var tmp := "UPDATE T";
    forall i ensures !OccursAt(tmp, "EXEC", i) {
      if 0 <= i && i + 4 <= |tmp| {
        assert tmp[i..i + 4][0] == tmp[i] != 'E';
      }
    }
    NoOccurrence(tmp, "EXEC");
  }

  /** A leading-whitespace UPDATE refreshes table data but not the tree. */
  lemma UpdateExample()
    ensures UpdateTables(Str("  update t"))
    ensures !UpdateObjectTree(Str("  update t"))
  {
    UpdateNormalized();
    UpdateHasNoExec();
    var tmp := Normalized("  update t");
    assert tmp[0] == 'U';
    assert tmp[..6] == "UPDATE";
  }

  /** A plain query refreshes nothing. */
  lemma SelectExample()
    ensures !UpdateObjectTree(Str("select x")) && !UpdateTables(Str("select x"))
  {
    var s := "select x";
    assert LeadingSpaces(s) == 0;
    assert TrailingStart(s) == |s|;
    var tmp := Normalized(s);
    assert tmp == "SELECT X";
    forall i ensures !OccursAt(tmp, "EXEC", i) {
      if 0 <= i && i + 4 <= |tmp| {
        assert tmp[i..i + 4][1] == tmp[i + 1] != 'X';
      }
    }
    NoOccurrence(tmp, "EXEC");
    SelectNeedsNoRefresh(s);
  }

  /** The empty statement, and a null one, refresh nothing. */
  lemma EmptyExample()
    ensures !UpdateObjectTree(Str("")) && !UpdateTables(Str(""))
    ensures !UpdateObjectTree(Null) && !UpdateTables(Null)
  {
    assert Normalized("") == "";
    NoOccurrence("", "EXEC");
  }
}

=== FILE: columnwidths.dfy ===
/**
  The arithmetic of Utils::setColumnWidths: from the widths the columns of
  a table view want and the width of its viewport, the widths the columns
  are given. "Small" columns (wanted at most half, where half is the
  viewport width divided by twice the column count) get what they want;
  the others get a square-root-compressed share of what is left; if the
  wanted widths together fall short of the viewport, every column is then
  widened in proportion. All quantities are non-negative here, so C++'s
  truncating division agrees with Dafny's.
 */
module ColumnWidths {

  /** The inputs setColumnWidths can work with: at least one column (it
      divides by twice the column count), a viewport width, and wanted
      widths that are all positive (the second loop takes a width of 0 for
      an unassigned column; ZeroWidthBreaksDivision shows where that
      leads). */
  predicate Valid(ws: seq<int>, view: int) {
    |ws| >= 1 && view >= 0 && forall i :: 0 <= i < |ws| ==> ws[i] > 0
  }

  /** The threshold below which a column counts as small. */
  function Half(ws: seq<int>, view: int): int
    requires Valid(ws, view)
  {
    view / (2 * |ws|)
  }

  function Sum(ws: seq<int>): int {
    if ws == [] then 0 else Sum(ws[..|ws| - 1]) + ws[|ws| - 1]
  }

  /** Sum of the wanted widths of the small columns. */
  function SmallSum(ws: seq<int>, half: int): int {
    if ws == [] then 0
    else SmallSum(ws[..|ws| - 1], half) + (if ws[|ws| - 1] <= half then ws[|ws| - 1] else 0)
  }

  /** Sum of the wanted widths of the other columns. */
  function LargeSum(ws: seq<int>, half: int): int {
    if ws == [] then 0
    else LargeSum(ws[..|ws| - 1], half) + (if ws[|ws| - 1] > half then ws[|ws| - 1] else 0)
  }

  /** Number of columns that are not small. */
  function LargeCount(ws: seq<int>, half: int): nat {
    if ws == [] then 0
    else LargeCount(ws[..|ws| - 1], half) + (if ws[|ws| - 1] > half then 1 else 0)
  }

  /** Extending a prefix by one column. */
  lemma PrefixStep(ws: seq<int>, half: int, i: int)
    requires 0 <= i < |ws|
    ensures SmallSum(ws[..i + 1], half) == SmallSum(ws[..i], half) + (if ws[i] <= half then ws[i] else 0)
    ensures LargeSum(ws[..i + 1], half) == LargeSum(ws[..i], half) + (if ws[i] > half then ws[i] else 0)
    ensures LargeCount(ws[..i + 1], half) == LargeCount(ws[..i], half) + (if ws[i] > half then 1 else 0)
  {
    assert ws[..i + 1][..i] == ws[..i];
  }

  /** Every wanted width is either small or large. */
  lemma {:induction false} SumSplits(ws: seq<int>, half: int)
    ensures Sum(ws) == SmallSum(ws, half) + LargeSum(ws, half)
    decreases |ws|
  {
    if ws != [] {
      SumSplits(ws[..|ws| - 1], half);
    }
  }

  /** The small columns together want at most half per column. */
  lemma {:induction false} SmallSumBounds(ws: seq<int>, half: int)
    requires half >= 0
    requires forall i :: 0 <= i < |ws| ==> ws[i] > 0
    ensures 0 <= SmallSum(ws, half) <= |ws| * half
    decreases |ws|
  {
    if ws != [] {
      var p := ws[..|ws| - 1];
      assert forall i :: 0 <= i < |p| ==> p[i] == ws[i];
      SmallSumBounds(p, half);
      assert |ws| * half == |p| * half + half;
    }
  }

  /** The columns together are promised no more than the viewport. */
  lemma HalfBound(ws: seq<int>, view: int)
    requires Valid(ws, view)
    ensures 0 <= Half(ws, view) && |ws| * Half(ws, view) <= view
  {
    DivShare(|ws|, view);
  }

  lemma DivShare(n: int, view: int)
    requires n >= 1 && view >= 0
    ensures 0 <= view / (2 * n) && 2 * (n * (view / (2 * n))) <= view
  {
    var d := 2 * n;
    var h := view / d;
    var r := view % d;
    assert view == d * h + r && 0 <= r < d;
    MulStep(d, h, 0);
    MulLe(h, n, d);
  }

  /** A prefix holds no more large columns than the whole. */
  lemma {:induction false} LargeCountPrefix(ws: seq<int>, half: int, j: int)
    requires 0 <= j <= |ws|
    ensures LargeCount(ws[..j], half) <= LargeCount(ws, half)
    decreases |ws|
  {
    if j == |ws| {
      assert ws[..j] == ws;
    } else {
      var p := ws[..|ws| - 1];
      assert p[..j] == ws[..j];
      LargeCountPrefix(p, half, j);
    }
  }

  /** The number of large columns not yet given a width: columnsLeft in
      the second loop when it reaches column i. */
  function ColumnsLeft(ws: seq<int>, half: int, i: int): int
    requires 0 <= i <= |ws|
  {
    LargeCount(ws, half) - LargeCount(ws[..i], half)
  }

  /** When the second loop reaches a large column, columnsLeft counts at
      least that column, so its division is defined. */
  lemma ColumnsLeftPositive(ws: seq<int>, half: int, i: int)
    requires 0 <= i < |ws| && ws[i] > half
    ensures ColumnsLeft(ws, half, i) >= 1
  {
    assert ws[..i + 1][..i] == ws[..i];
    LargeCountPrefix(ws, half, i + 1);
  }

  /** Number of columns that want no width at all. */
  function ZeroCount(ws: seq<int>): nat {
    if ws == [] then 0
    else ZeroCount(ws[..|ws| - 1]) + (if ws[|ws| - 1] == 0 then 1 else 0)
  }

  /** Number of columns the second loop as written visits: those the
      first loop left at 0, which are the large columns and also the
      small columns that want a width of 0. */
  function MarkedCount(ws: seq<int>, half: int): nat {
    if ws == [] then 0
    else MarkedCount(ws[..|ws| - 1], half) + (if ws[|ws| - 1] > half || ws[|ws| - 1] == 0 then 1 else 0)
  }

  /** columnsLeft in the second loop as written when it reaches column
      i: it starts at the number of large columns and drops at every
      column the first loop left at 0. */
  function ColumnsLeftAsWritten(ws: seq<int>, half: int, i: int): int
    requires 0 <= i <= |ws|
  {
    LargeCount(ws, half) - MarkedCount(ws[..i], half)
  }

  /** Since a zero-width column is small, the second loop as written
      visits every large column and every zero-width one. */
  lemma {:induction false} MarkedSplits(ws: seq<int>, half: int)
    requires half >= 0
    ensures MarkedCount(ws, half) == LargeCount(ws, half) + ZeroCount(ws)
    decreases |ws|
  {
    if ws != [] {
      MarkedSplits(ws[..|ws| - 1], half);
    }
  }

  /** As written, columnsLeft falls behind the number of large columns
      still to come by one for every zero-width column passed. */
  lemma ColumnsLeftAsWrittenLags(ws: seq<int>, half: int, i: int)
    requires half >= 0 && 0 <= i <= |ws|
    ensures ColumnsLeftAsWritten(ws, half, i) == ColumnsLeft(ws, half, i) - ZeroCount(ws[..i])
  {
    MarkedSplits(ws[..i], half);
  }

  /** As written, the last large column divides by a columnsLeft of at
      most 0 once any zero-width column came before it. */
  lemma ZeroWidthBreaksDivision(ws: seq<int>, half: int, i: int)
    requires half >= 0 && 0 <= i < |ws| && ws[i] > half
    requires LargeCount(ws[..i + 1], half) == LargeCount(ws, half)
    requires ZeroCount(ws[..i]) >= 1
    ensures ColumnsLeftAsWritten(ws, half, i) <= 0
  {
    ColumnsLeftAsWrittenLags(ws, half, i);
    PrefixStep(ws, half, i);
  }

  /** Wanted widths 0 and 1000 in a viewport of 100: half is 25, and the
      second loop as written reaches column 1 with columnsLeft 0 and
      divides by it. */
  lemma ZeroWidthColumnExample()
    ensures 100 / (2 * 2) == 25
    ensures ColumnsLeftAsWritten([0, 1000], 25, 1) == 0
  {
    var ws := [0, 1000];
    assert ws[..1] == [0] && ws[..2] == ws;
    ZeroWidthBreaksDivision(ws, 25, 1);
    PrefixStep(ws, 25, 0);
    assert ws[..0] == [];
  }

  /** What the first loop leaves of the viewport is between 0 and all
      of it. */
  lemma InitialWidthLeft(ws: seq<int>, view: int)
    requires Valid(ws, view)
    ensures 0 <= view - SmallSum(ws, Half(ws, view)) <= view
  {
    HalfBound(ws, view);
    SmallSumBounds(ws, Half(ws, view));
  }

  /** widthLeft when the second loop reaches column i: the viewport less
      the small columns, less each earlier large column's wanted width,
      but only when that is smaller than what is left. */
  function WidthLeftAt(ws: seq<int>, view: int, i: int): (wl: int)
    requires Valid(ws, view) && 0 <= i <= |ws|
    ensures 0 <= wl <= view
    decreases i
  {
    if i == 0 then
      InitialWidthLeft(ws, view);
      view - SmallSum(ws, Half(ws, view))
    else
      var wl := WidthLeftAt(ws, view, i - 1);
      var w := ws[i - 1];
      if w > Half(ws, view) && wl > w then wl - w else wl
  }

  /** With a viewport at least one pixel wide, widthLeft never reaches
      zero: the small columns leave at least half of the viewport, and a
      large column is subtracted only when strictly less remains after. */
  lemma {:induction false} WidthLeftStaysPositive(ws: seq<int>, view: int, i: int)
    requires Valid(ws, view) && view >= 1 && 0 <= i <= |ws|
    ensures WidthLeftAt(ws, view, i) >= 1
    decreases i
  {
    if i == 0 {
      DivShare(|ws|, view);
      SmallSumBounds(ws, Half(ws, view));
    } else {
      WidthLeftStaysPositive(ws, view, i - 1);
    }
  }

  /** Floor of the square root; the source takes qSqrt of the quotient
      and truncates it to an integer. */
  function Isqrt(n: nat): (r: nat)
    ensures r * r <= n < (r + 1) * (r + 1)
  {
    if n < 4 then (if n == 0 then 0 else 1)
    else
      var h := Isqrt(n / 4);
      IsqrtStep(n, h);
      if (2 * h + 1) * (2 * h + 1) <= n then 2 * h + 1 else 2 * h
  }

  lemma IsqrtStep(n: nat, h: nat)
    requires h * h <= n / 4 < (h + 1) * (h + 1)
    ensures (2 * h) * (2 * h) <= n < (2 * h + 2) * (2 * h + 2)
  {
    var q := n / 4;
    assert n == 4 * q + n % 4;
    assert (2 * h) * (2 * h) == 4 * (h * h);
    assert (2 * h + 2) * (2 * h + 2) == 4 * ((h + 1) * (h + 1));
  }

  lemma SquareMono(a: nat, b: nat)
    requires a <= b
    ensures a * a <= b * b
  {
    assert a * a <= a * b <= b * b;
  }

  /** The floor square root is the only r with r*r <= n < (r+1)*(r+1). */
  lemma IsqrtUnique(n: nat, r: nat)
    requires r * r <= n < (r + 1) * (r + 1)
    ensures Isqrt(n) == r
  {
    var s := Isqrt(n);
    if s < r { SquareMono(s + 1, r); }
    if r < s { SquareMono(r + 1, s); }
  }

  lemma MulNonneg(a: int, b: int)
    requires a >= 0 && b >= 0
    ensures a * b >= 0
  {
  }

  /** (wanted - half) * widthLeft / columnsLeft, the square of what a
      large column gets beyond half. */
  function Share(excess: int, widthLeft: int, columnsLeft: int): nat
    requires excess >= 0 && widthLeft >= 0 && columnsLeft >= 1
  {
    MulNonneg(excess, widthLeft);
    excess * widthLeft / columnsLeft
  }

  /** The width column i is given before any scaling. A small column gets
      what it wants; a large one gets the lesser of what it wants and
      half plus the floor square root of (wanted - half) * widthLeft /
      columnsLeft. Every column gets at most what it wants and at least
      the lesser of that and half. */
  function Assigned(ws: seq<int>, view: int, i: int): (g: int)
    requires Valid(ws, view) && 0 <= i < |ws|
    ensures 0 <= g <= ws[i]
    ensures ws[i] <= Half(ws, view) ==> g == ws[i]
    ensures ws[i] > Half(ws, view) ==> Half(ws, view) <= g
  {
    var half := Half(ws, view);
    var w := ws[i];
    if w <= half then w
    else
      HalfBound(ws, view);
      ColumnsLeftPositive(ws, half, i);
      var x := half + Isqrt(Share(w - half, WidthLeftAt(ws, view, i), ColumnsLeft(ws, half, i)));
      if w < x then w else x
  }

  /** The widths of all columns before scaling: no column gets more than
      it wants, a small column gets exactly that, a large one at least
      half, and together they take no more than the wanted widths. */
  function Allocation(ws: seq<int>, view: int): (gs: seq<int>)
    requires Valid(ws, view)
    ensures |gs| == |ws|
    ensures forall i :: 0 <= i < |ws| ==> 0 <= gs[i] <= ws[i]
    ensures forall i :: 0 <= i < |ws| && ws[i] <= Half(ws, view) ==> gs[i] == ws[i]
    ensures forall i :: 0 <= i < |ws| && ws[i] > Half(ws, view) ==> Half(ws, view) <= gs[i]
    ensures Sum(gs) <= Sum(ws)
  {
    var gs := seq(|ws|, i requires 0 <= i < |ws| => Assigned(ws, view, i));
    SumMono(gs, ws);
    gs
  }

  /** Each width multiplied by view and divided by used, truncated. */
  function Scaled(gs: seq<int>, view: int, used: int): seq<int>
    requires used > 0
  {
    seq(|gs|, i requires 0 <= i < |gs| => gs[i] * view / used)
  }

  /** The widths setColumnWidths finally sets: the allocation scaled up
      to the viewport when the wanted widths fall short of it, otherwise
      the allocation itself. */
  function FinalWidths(ws: seq<int>, view: int): seq<int>
    requires Valid(ws, view)
  {
    SumPositive(ws);
    var used := Sum(ws);
    if used < view then Scaled(Allocation(ws, view), view, used)
    else Allocation(ws, view)
  }

  lemma {:induction false} SumPositive(ws: seq<int>)
    requires |ws| >= 1 && forall i :: 0 <= i < |ws| ==> ws[i] > 0
    ensures Sum(ws) >= |ws|
    decreases |ws|
  {
    var p := ws[..|ws| - 1];
    assert forall i :: 0 <= i < |p| ==> p[i] == ws[i];
    if |p| >= 1 {
      SumPositive(p);
    }
  }

  /** Pointwise smaller widths have a smaller sum. */
  lemma {:induction false} SumMono(a: seq<int>, b: seq<int>)
    requires |a| == |b|
    requires forall i :: 0 <= i < |a| ==> a[i] <= b[i]
    ensures Sum(a) <= Sum(b)
    decreases |a|
  {
    if a != [] {
      var pa, pb := a[..|a| - 1], b[..|b| - 1];
      assert forall i :: 0 <= i < |pa| ==> pa[i] == a[i] && pb[i] == b[i];
      SumMono(pa, pb);
    }
  }

  lemma {:induction false} SumNonneg(a: seq<int>)
    requires forall i :: 0 <= i < |a| ==> a[i] >= 0
    ensures Sum(a) >= 0
    decreases |a|
  {
    if a != [] {
      var p := a[..|a| - 1];
      assert forall i :: 0 <= i < |p| ==> p[i] == a[i];
      SumNonneg(p);
    }
  }

  lemma MulLe(k: int, x: int, y: int)
    requires k >= 0 && x <= y
    ensures k * x <= k * y
  {
    MulNonneg(k, y - x);
  }

  /** Below q, a multiple of u falls short of u * q by at least u. */
  lemma MulStep(u: int, s: int, q: int)
    requires u > 0
    ensures s < q ==> u * s + u <= u * q
  {
    if s < q {
      MulLe(u, s + 1, q);
    }
  }

  /** Truncating division loses at least as much on the parts as on the
      whole. */
  lemma DivAdd(a: int, b: int, u: int)
    requires a >= 0 && b >= 0 && u > 0
    ensures a / u + b / u <= (a + b) / u
  {
    var qa, qb, s := a / u, b / u, (a + b) / u;
    assert a == u * qa + a % u;
    assert b == u * qb + b % u;
    assert a + b == u * s + (a + b) % u;
    MulStep(u, s, qa + qb);
  }

  /** One more width keeps the scaled sum below the scaled total. */
  lemma DivAddSum(x: int, sp: int, g: int, view: int, used: int)
    requires sp >= 0 && g >= 0 && view >= 0 && used > 0
    requires x <= sp * view / used
    ensures x + g * view / used <= (sp + g) * view / used
  {
    MulNonneg(sp, view);
    MulNonneg(g, view);
    DivAdd(sp * view, g * view, used);
    assert sp * view + g * view == (sp + g) * view;
  }

  /** The scaled widths add up to at most the scaled sum. */
  lemma {:induction false} ScaledSum(gs: seq<int>, view: int, used: int)
    requires used > 0 && view >= 0
    requires forall i :: 0 <= i < |gs| ==> gs[i] >= 0
    ensures Sum(Scaled(gs, view, used)) <= Sum(gs) * view / used
    decreases |gs|
  {
    if gs != [] {
      var p := gs[..|gs| - 1];
      var g := gs[|gs| - 1];
      var sc := Scaled(gs, view, used);
      assert forall i :: 0 <= i < |p| ==> p[i] == gs[i];
      assert sc[..|gs| - 1] == Scaled(p, view, used);
      assert Sum(sc) == Sum(Scaled(p, view, used)) + g * view / used;
      ScaledSum(p, view, used);
      SumNonneg(p);
      DivAddSum(Sum(Scaled(p, view, used)), Sum(p), g, view, used);
    }
  }

  /** Widths adding up to at most `used`, scaled by view / used, add up
      to at most view. */
  lemma ScaledFits(gs: seq<int>, view: int, used: int)
    requires used > 0 && view >= 0
    requires forall i :: 0 <= i < |gs| ==> gs[i] >= 0
    requires Sum(gs) <= used
    ensures Sum(Scaled(gs, view, used)) <= view
  {
    ScaledSum(gs, view, used);
    SumNonneg(gs);
    DivBelow(Sum(gs), view, used);
  }

  /** s * view / used is at most view when s is at most used. */
  lemma DivBelow(s: int, view: int, used: int)
    requires 0 <= s <= used && used > 0 && view >= 0
    ensures s * view / used <= view
  {
    var t := s * view;
    MulLe(view, s, used);
    assert t == used * (t / used) + t % used;
    MulStep(used, view, t / used);
  }

  /** Scaling by view / used with used < view never narrows a column. */
  lemma ScaledGrows(g: int, view: int, used: int)
    requires g >= 0 && 0 < used < view
    ensures g * view / used >= g
  {
    var s := g * view / used;
    assert g * view == used * s + (g * view) % used;
    MulLe(g, used, view);
    MulStep(used, s, g);
  }

  /** What setColumnWidths promises of its result: one width per column;
      when the wanted widths fall short of the viewport, every column is at
      least as wide as assigned and the columns fit in the viewport;
      otherwise the columns get exactly the assigned widths. */
  lemma FinalWidthsFit(ws: seq<int>, view: int)
    requires Valid(ws, view)
    ensures |FinalWidths(ws, view)| == |ws|
    ensures Sum(ws) < view ==>
      && Sum(FinalWidths(ws, view)) <= view
      && forall i :: 0 <= i < |ws| ==> FinalWidths(ws, view)[i] >= Assigned(ws, view, i)
    ensures Sum(ws) >= view ==>
      forall i :: 0 <= i < |ws| ==> FinalWidths(ws, view)[i] == Assigned(ws, view, i)
  {
    var gs := Allocation(ws, view);
    SumPositive(ws);
    var used := Sum(ws);
    if used < view {
      SumMono(gs, ws);
      ScaledFits(gs, view, used);
      forall i | 0 <= i < |ws| ensures FinalWidths(ws, view)[i] >= Assigned(ws, view, i) {
        ScaledGrows(gs[i], view, used);
      }
    }
  }

  /** The first loop of setColumnWidths: every small column gets its
      wanted width, the others stay marked 0; widthLeft, widthUsed and
      columnsLeft account for the small columns. */
  method GiveSmallColumns(wanted: seq<int>, widthView: int, half: int)
    returns (got: seq<int>, widthLeft: int, widthUsed: int, columnsLeft: int)
    requires Valid(wanted, widthView) && half == Half(wanted, widthView)
    ensures |got| == |wanted|
    ensures forall j :: 0 <= j < |wanted| ==> got[j] == (if wanted[j] <= half then wanted[j] else 0)
    ensures widthLeft == WidthLeftAt(wanted, widthView, 0)
    ensures widthUsed == SmallSum(wanted, half)
    ensures columnsLeft == ColumnsLeft(wanted, half, 0)
  {
    var columns := |wanted|;
    widthLeft, widthUsed, columnsLeft := widthView, 0, columns;
    got := seq(columns, _ => 0);
    var i := 0;
    while i < columns
      invariant 0 <= i <= columns && |got| == columns
      invariant forall j :: 0 <= j < i ==> got[j] == (if wanted[j] <= half then wanted[j] else 0)
      invariant forall j :: i <= j < columns ==> got[j] == 0
      invariant widthLeft == widthView - SmallSum(wanted[..i], half)
      invariant widthUsed == SmallSum(wanted[..i], half)
      invariant columnsLeft == columns - i + LargeCount(wanted[..i], half)
    {
      PrefixStep(wanted, half, i);
      var w := wanted[i];
      if w <= half {
        got := got[i := w];
        widthLeft := widthLeft - w;
        widthUsed := widthUsed + w;
        columnsLeft := columnsLeft - 1;
      }
      i := i + 1;
    }
    assert wanted[..columns] == wanted;
    assert wanted[..0] == [];
  }

  /** The second loop of setColumnWidths: each column still marked 0 gets
      its compressed share; widthUsed grows by every such column's wanted
      width. */
  method GiveLargeColumns(wanted: seq<int>, widthView: int, half: int, got0: seq<int>,
                          widthLeft0: int, widthUsed0: int, columnsLeft0: int)
    returns (got: seq<int>, widthUsed: int)
    requires Valid(wanted, widthView) && half == Half(wanted, widthView)
    requires |got0| == |wanted|
    requires forall j :: 0 <= j < |wanted| ==> got0[j] == (if wanted[j] <= half then wanted[j] else 0)
    requires widthLeft0 == WidthLeftAt(wanted, widthView, 0)
    requires widthUsed0 == SmallSum(wanted, half)
    requires columnsLeft0 == ColumnsLeft(wanted, half, 0)
    ensures |got| == |wanted|
    ensures forall j :: 0 <= j < |wanted| ==> got[j] == Assigned(wanted, widthView, j)
    ensures widthUsed == Sum(wanted)
  {
    var columns := |wanted|;
    got, widthUsed := got0, widthUsed0;
    var widthLeft, columnsLeft := widthLeft0, columnsLeft0;
    assert wanted[..0] == [];
    var i := 0;
    while i < columns
      invariant 0 <= i <= columns && |got| == columns
      invariant forall j :: 0 <= j < i ==> got[j] == Assigned(wanted, widthView, j)
      invariant forall j :: i <= j < columns ==> got[j] == got0[j]
      invariant widthLeft == WidthLeftAt(wanted, widthView, i)
      invariant widthUsed == SmallSum(wanted, half) + LargeSum(wanted[..i], half)
      invariant columnsLeft == ColumnsLeft(wanted, half, i)
    {
      PrefixStep(wanted, half, i);
      if got[i] == 0 {
        var w := wanted[i];
        ColumnsLeftPositive(wanted, half, i);
        var x := half + Isqrt(Share(w - half, widthLeft, columnsLeft));
        assert (if w < x then w else x) == Assigned(wanted, widthView, i);
        got := got[i := if w < x then w else x];
        if widthLeft > w {
          widthLeft := widthLeft - w;
        }
        widthUsed := widthUsed + w;
        columnsLeft := columnsLeft - 1;
      } else {
        assert got[i] == Assigned(wanted, widthView, i);
      }
      i := i + 1;
    }
    assert wanted[..columns] == wanted;
    SumSplits(wanted, half);
  }

  /** The two allocation loops of setColumnWidths. The first gives every
      small column its wanted width; the second visits the columns still
      marked 0 and gives each its compressed share. widthUsed ends up as
      the sum of all wanted widths. */
  method AssignWidths(wanted: seq<int>, widthView: int) returns (got: seq<int>, widthUsed: int)
    requires Valid(wanted, widthView)
    ensures |got| == |wanted|
    ensures widthUsed == Sum(wanted)
    ensures forall i :: 0 <= i < |wanted| ==> got[i] == Assigned(wanted, widthView, i)
  {
    var half := widthView / (|wanted| * 2);
    var got0, widthLeft, widthUsed0, columnsLeft := GiveSmallColumns(wanted, widthView, half);
    got, widthUsed := GiveLargeColumns(wanted, widthView, half, got0, widthLeft, widthUsed0, columnsLeft);
  }

  /** setColumnWidths without the widget: the widths it sets on the
      columns. */
  method SetColumnWidths(wanted: seq<int>, widthView: int) returns (widths: seq<int>)
    requires Valid(wanted, widthView)
    ensures widths == FinalWidths(wanted, widthView)
    ensures Sum(wanted) < widthView ==>
      && Sum(widths) <= widthView
      && forall i :: 0 <= i < |wanted| ==> widths[i] >= Assigned(wanted, widthView, i)
    ensures Sum(wanted) >= widthView ==>
      forall i :: 0 <= i < |wanted| ==> widths[i] == Assigned(wanted, widthView, i)
  {
    var got, widthUsed := AssignWidths(wanted, widthView);
    assert got == Allocation(wanted, widthView);
    SumPositive(wanted);
    if widthUsed < widthView {
      widths := Scaled(got, widthView, widthUsed);
    } else {
      widths := got;
    }
    FinalWidthsFit(wanted, widthView);
  }

  lemma ExampleWidthLeft()
    ensures Half([10, 1000], 100) == 25
    ensures WidthLeftAt([10, 1000], 100, 1) == 90
    ensures ColumnsLeft([10, 1000], 25, 1) == 1
  {
    var ws := [10, 1000];
    assert ws[..1] == [10];
    assert ws[..0] == [];
    assert SmallSum(ws, 25) == 10;
  }

  lemma ExampleAssigned()
    ensures Assigned([10, 1000], 100, 0) == 10
    ensures Assigned([10, 1000], 100, 1) == 321
  {
    ExampleWidthLeft();
    assert Share(975, 90, 1) == 87750;
    IsqrtUnique(87750, 296);
  }

  /** Two columns wanting 10 and 1000 in a viewport of 100: half is 25,
      the first column gets its 10, the second 25 + floor(sqrt(975 * 90))
      = 321, and since 1010 exceeds 100 nothing is scaled. */
  lemma TwoColumnExample()
    ensures FinalWidths([10, 1000], 100) == [10, 321]
  {
    var ws := [10, 1000];
    ExampleAssigned();
    assert Sum(ws) == 1010 by {
      assert ws[..1] == [10];
    }
    assert Allocation(ws, 100) == [10, 321];
  }

  lemma UnevenWidthLeft()
    ensures Half([350, 300], 400) == 100
    ensures WidthLeftAt([350, 300], 400, 0) == 400
    ensures WidthLeftAt([350, 300], 400, 1) == 50
    ensures ColumnsLeft([350, 300], 100, 0) == 2
    ensures ColumnsLeft([350, 300], 100, 1) == 1
  {
    var ws := [350, 300];
    assert ws[..1] == [350];
    assert ws[..0] == [];
    assert ws[..2] == ws;
    assert SmallSum(ws, 100) == 0;
  }

  lemma UnevenAssignedFirst()
    ensures Assigned([350, 300], 400, 0) == 323
  {
    UnevenWidthLeft();
    assert Share(250, 400, 2) == 50000;
    IsqrtUnique(50000, 223);
  }

  lemma UnevenAssignedSecond()
    ensures Assigned([350, 300], 400, 1) == 200
  {
    UnevenWidthLeft();
    assert Share(200, 50, 1) == 10000;
    IsqrtUnique(10000, 100);
  }

  /** Against the intent stated at the second loop ("giving smaller ones
      a larger proportion of what they want"), the larger column may get
      the larger proportion: wanting 350 and 300 in a viewport of 400, the
      first gets 323 (over 92%) and the second only 200 (under 67%), since
      the first leaves just 50 of widthLeft. The sum 650 exceeds 400, so
      nothing is scaled. */
  lemma SmallerColumnSmallerShareExample()
    ensures FinalWidths([350, 300], 400) == [323, 200]
    ensures 350 > 300 && 323 * 300 > 200 * 350
  {
    var ws := [350, 300];
    UnevenAssignedFirst();
    UnevenAssignedSecond();
    assert Sum(ws) == 650 by {
      assert ws[..1] == [350];
    }
    assert Allocation(ws, 400) == [323, 200];
  }
}

=== FILE: like.dfy ===
/**
  LIKE patterns built from user text: Utils::like (contains-search) and
  Utils::startswith (prefix search). Both put the user text inside a SQL
  string literal, escape it for the LIKE operator with '@' as the escape
  character, and add an ESCAPE '@' clause.
 */
module LikeEscaping {
  import opened Optional
  import opened QtString
  import opened Quoting

  /** The escaping shared by like and startswith, as written: four replace
      passes, the '@' pass last. */
  function LikeEscape(s: string): string {
    Replace(Replace(Replace(Replace(s, '\'', "''"), '_', "@_"), '%', "@%"), '@', "@@")
  }

  /** What the four passes do to a single character. Because the '@' pass
      runs last it also doubles the '@' put in front of '_' and '%'. */
  function EscapeChar(ch: char): string {
    if ch == '\'' then "''"
    else if ch == '@' then "@@"
    else if ch == '_' then "@@_"
    else if ch == '%' then "@@%"
    else [ch]
  }

  /** The per-character map applied to a whole text. */
  function EscapeEach(s: string): string {
    if s == [] then [] else EscapeChar(s[0]) + EscapeEach(s[1..])
  }

  lemma EscapeOneChar(ch: char)
    ensures LikeEscape([ch]) == EscapeChar(ch)
  {
    var s1 := Replace([ch], '\'', "''");
    var s2 := Replace(s1, '_', "@_");
    var s3 := Replace(s2, '%', "@%");
    if ch == '\'' {
      assert s1 == "''" == s2 == s3;
      assert Replace(s3, '@', "@@") == "''";
    } else if ch == '_' {
      assert s1 == "_";
      assert s2 == "@_" == s3;
      assert Replace(s3, '@', "@@") == "@@_";
    } else if ch == '%' {
      assert s1 == "%" == s2;
      assert s3 == "@%";
      assert Replace(s3, '@', "@@") == "@@%";
    } else {
      assert s1 == [ch] == s2 == s3;
    }
  }

  lemma LikeEscapeConcat(a: string, b: string)
    ensures LikeEscape(a + b) == LikeEscape(a) + LikeEscape(b)
  {
    ReplaceConcat(a, b, '\'', "''");
    var a1, b1 := Replace(a, '\'', "''"), Replace(b, '\'', "''");
    ReplaceConcat(a1, b1, '_', "@_");
    var a2, b2 := Replace(a1, '_', "@_"), Replace(b1, '_', "@_");
    ReplaceConcat(a2, b2, '%', "@%");
    var a3, b3 := Replace(a2, '%', "@%"), Replace(b2, '%', "@%");
    ReplaceConcat(a3, b3, '@', "@@");
  }

  /** The four sequential passes compose to the per-character map. */
  lemma {:induction false} LikeEscapeIsPerCharacter(s: string)
    ensures LikeEscape(s) == EscapeEach(s)
    decreases |s|
  {
    if s != [] {
      assert s == [s[0]] + s[1..];
      LikeEscapeConcat([s[0]], s[1..]);
      EscapeOneChar(s[0]);
      LikeEscapeIsPerCharacter(s[1..]);
    }
  }

  /** Utils::like: a literal matching rows that contain the text. */
  function Like(s: string): (r: string)
    ensures r == "'%" + EscapeEach(s) + "%' ESCAPE '@'"
  {
    LikeEscapeIsPerCharacter(s);
    "'%" + LikeEscape(s) + "%' ESCAPE '@'"
  }

  /** Utils::startswith: a literal matching rows that start with the text. */
  function StartsWith(s: string): (r: string)
    ensures r == "'" + EscapeEach(s) + "%' ESCAPE '@'"
  {
    LikeEscapeIsPerCharacter(s);
    "'" + LikeEscape(s) + "%' ESCAPE '@'"
  }

  /** The two differ only in the '%' right after the opening quote. */
  lemma LikeIsStartsWithUnanchored(s: string)
    ensures |StartsWith(s)| >= 1
    ensures Like(s) == StartsWith(s)[..1] + "%" + StartsWith(s)[1..]
  {
    var tail := EscapeEach(s) + "%' ESCAPE '@'";
    var w := StartsWith(s);
    assert w == "'" + tail;
    assert w[..1] == "'" && w[1..] == tail;
    assert Like(s) == "'" + "%" + tail;
  }

  // ---------------------------------------------------------------------
  // How the database reads the result: the SQL string literal first, then
  // the LIKE pattern inside it with '@' as escape character.

  /** One element of a LIKE pattern. */
  datatype PatternItem = Literal(ch: char) | AnyChar | AnyRun

  function Cons(x: PatternItem, o: Option<seq<PatternItem>>): Option<seq<PatternItem>> {
    match o
    case None => None
    case Some(ys) => Some([x] + ys)
  }

  function Append(xs: seq<PatternItem>, o: Option<seq<PatternItem>>): Option<seq<PatternItem>> {
    match o
    case None => None
    case Some(ys) => Some(xs + ys)
  }

  /** SQLite's reading of a LIKE pattern under ESCAPE '@': '%' is any run of
      characters, '_' any one character, '@' makes the next character
      literal, and every other character stands for itself. A pattern that
      ends in a lone '@' matches nothing (None). */
  function PatternItems(p: string): Option<seq<PatternItem>>
    decreases |p|
  {
    if p == [] then Some([])
    else if p[0] == '%' then Cons(AnyRun, PatternItems(p[1..]))
    else if p[0] == '_' then Cons(AnyChar, PatternItems(p[1..]))
    else if p[0] == '@' then
      if |p| >= 2 then Cons(Literal(p[1]), PatternItems(p[2..])) else None
    else Cons(Literal(p[0]), PatternItems(p[1..]))
  }

  /** Each character of `s` as a literal pattern item. */
  function Literals(s: string): (r: seq<PatternItem>)
    ensures |r| == |s|
    ensures forall i :: 0 <= i < |s| ==> r[i] == Literal(s[i])
  {
    if s == [] then [] else [Literal(s[0])] + Literals(s[1..])
  }

  /** The LIKE-level part of EscapeChar: the same map without the quote
      doubling, which belongs to the string literal. */
  function AtEscapeChar(ch: char): string {
    if ch == '@' then "@@"
    else if ch == '_' then "@@_"
    else if ch == '%' then "@@%"
    else [ch]
  }

  function AtEscapeEach(s: string): string {
    if s == [] then [] else AtEscapeChar(s[0]) + AtEscapeEach(s[1..])
  }

  /** The pattern items the as-written escaping yields for each character:
      '_' and '%' come out as a literal '@' followed by a wildcard. */
  function AsWrittenItems(s: string): seq<PatternItem> {
    if s == [] then []
    else
      (if s[0] == '_' then [Literal('@'), AnyChar]
       else if s[0] == '%' then [Literal('@'), AnyRun]
       else [Literal(s[0])])
      + AsWrittenItems(s[1..])
  }

  /** EscapeEach is the LIKE-level escaping followed by quote doubling. */
  lemma {:induction false} EscapeEachSplits(s: string)
    ensures EscapeEach(s) == Replace(AtEscapeEach(s), '\'', "''")
    decreases |s|
  {
    if s != [] {
      EscapeEachSplits(s[1..]);
      ReplaceConcat(AtEscapeChar(s[0]), AtEscapeEach(s[1..]), '\'', "''");
      var a := AtEscapeChar(s[0]);
      if s[0] == '\'' {
        assert Replace(a, '\'', "''") == "''";
      } else if s[0] == '@' || s[0] == '_' || s[0] == '%' {
        assert '\'' !in a;
      } else {
        assert a == [s[0]];
      }
    }
  }

  /** Quote-doubling of "%" + v + "%" and of v + "%". */
  lemma DoubleAround(v: string, e: string)
    requires Replace(v, '\'', "''") == e
    ensures Replace("%" + v + "%", '\'', "''") == "%" + e + "%"
    ensures Replace(v + "%", '\'', "''") == e + "%"
  {
    ReplaceConcat("%", v, '\'', "''");
    ReplaceConcat("%" + v, "%", '\'', "''");
    ReplaceConcat(v, "%", '\'', "''");
  }

  lemma WrapLike(e: string, ex: string)
    requires ex == "%" + e + "%"
    ensures "'%" + e + "%' ESCAPE '@'" == "'" + ex + "'" + " ESCAPE '@'"
  {
  }

  lemma WrapStartsWith(e: string, ex: string)
    requires ex == e + "%"
    ensures "'" + e + "%' ESCAPE '@'" == "'" + ex + "'" + " ESCAPE '@'"
  {
  }

  /** The text of like(s) is a string literal holding "%" +
      AtEscapeEach(s) + "%" with its quotes doubled, then the ESCAPE
      clause. */
  lemma LikeLiteral(s: string)
    ensures Like(s) == "'" + Replace("%" + AtEscapeEach(s) + "%", '\'', "''") + "'" + " ESCAPE '@'"
  {
    var v := AtEscapeEach(s);
    var e := EscapeEach(s);
    EscapeEachSplits(s);
    DoubleAround(v, e);
    var ex := "%" + e + "%";
    WrapLike(e, ex);
    calc {
      Like(s);
      "'%" + e + "%' ESCAPE '@'";
      "'" + ex + "'" + " ESCAPE '@'";
      "'" + Replace("%" + v + "%", '\'', "''") + "'" + " ESCAPE '@'";
    }
  }

  /** The text of startswith(s) is a string literal holding
      AtEscapeEach(s) + "%" with its quotes doubled, then the ESCAPE
      clause. */
  lemma StartsWithLiteral(s: string)
    ensures StartsWith(s) == "'" + Replace(AtEscapeEach(s) + "%", '\'', "''") + "'" + " ESCAPE '@'"
  {
    var v := AtEscapeEach(s);
    var e := EscapeEach(s);
    EscapeEachSplits(s);
    DoubleAround(v, e);
    var ex := e + "%";
    WrapStartsWith(e, ex);
    calc {
      StartsWith(s);
      "'" + e + "%' ESCAPE '@'";
      "'" + ex + "'" + " ESCAPE '@'";
      "'" + Replace(v + "%", '\'', "''") + "'" + " ESCAPE '@'";
    }
  }

  lemma ItemsEscaped(ch: char, rest: string)
    ensures PatternItems(['@', ch] + rest) == Cons(Literal(ch), PatternItems(rest))
  {
    assert (['@', ch] + rest)[2..] == rest;
  }

  lemma ItemsWildcard(ch: char, rest: string)
    requires ch == '_' || ch == '%'
    ensures PatternItems([ch] + rest) == Cons(if ch == '_' then AnyChar else AnyRun, PatternItems(rest))
  {
    assert ([ch] + rest)[1..] == rest;
  }

  lemma ItemsPlain(ch: char, rest: string)
    requires ch != '_' && ch != '%' && ch != '@'
    ensures PatternItems([ch] + rest) == Cons(Literal(ch), PatternItems(rest))
  {
    assert ([ch] + rest)[1..] == rest;
  }

  lemma AppendNil(o: Option<seq<PatternItem>>)
    ensures Append([], o) == o
  {
    if o.Some? {
      assert [] + o.value == o.value;
    }
  }

  lemma AppendCons(x: PatternItem, xs: seq<PatternItem>, o: Option<seq<PatternItem>>)
    ensures Cons(x, Append(xs, o)) == Append([x] + xs, o)
  {
    if o.Some? {
      assert [x] + (xs + o.value) == ([x] + xs) + o.value;
    }
  }

  lemma AsWrittenWildcard(ch: char, rest: string, items: seq<PatternItem>, o: Option<seq<PatternItem>>)
    requires ch == '_' || ch == '%'
    requires PatternItems(rest) == Append(items, o)
    ensures PatternItems(['@', '@'] + ([ch] + rest))
         == Append([Literal('@'), if ch == '_' then AnyChar else AnyRun] + items, o)
  {
    var w := if ch == '_' then AnyChar else AnyRun;
    ItemsEscaped('@', [ch] + rest);
    ItemsWildcard(ch, rest);
    AppendCons(w, items, o);
    AppendCons(Literal('@'), [w] + items, o);
    assert [Literal('@')] + ([w] + items) == [Literal('@'), w] + items;
  }

  lemma {:induction false} AsWrittenPattern(s: string, tail: string)
    ensures PatternItems(AtEscapeEach(s) + tail) == Append(AsWrittenItems(s), PatternItems(tail))
    decreases |s|
  {
    if s == [] {
      assert AtEscapeEach(s) + tail == tail;
      AppendNil(PatternItems(tail));
    } else {
      var rest := AtEscapeEach(s[1..]) + tail;
      var o := PatternItems(tail);
      var items := AsWrittenItems(s[1..]);
      AsWrittenPattern(s[1..], tail);
      var ch := s[0];
      assert AtEscapeEach(s) == AtEscapeChar(ch) + AtEscapeEach(s[1..]);
      if ch == '_' || ch == '%' {
        assert AtEscapeChar(ch) == ['@', '@', ch];
        assert AtEscapeEach(s) + tail == ['@', '@'] + ([ch] + rest);
        assert AsWrittenItems(s) == [Literal('@'), if ch == '_' then AnyChar else AnyRun] + items;
        AsWrittenWildcard(ch, rest, items, o);
      } else if ch == '@' {
        assert AtEscapeChar(ch) == ['@', '@'];
        assert AtEscapeEach(s) + tail == ['@', '@'] + rest;
        ItemsEscaped('@', rest);
        AppendCons(Literal('@'), items, o);
      } else {
        assert AtEscapeChar(ch) == [ch];
        assert AtEscapeEach(s) + tail == [ch] + rest;
        ItemsPlain(ch, rest);
        AppendCons(Literal(ch), items, o);
      }
    }
  }

  lemma PercentItems()
    ensures PatternItems("%") == Some([AnyRun])
  {
    ItemsWildcard('%', []);
    assert ['%'] + [] == "%";
    assert [AnyRun] + [] == [AnyRun];
  }

  /** A pattern body between two '%' reads as any run, the body, any run. */
  lemma PercentAround(body: string, items: seq<PatternItem>)
    requires PatternItems(body + "%") == Append(items, PatternItems("%"))
    ensures PatternItems("%" + body + "%") == Some([AnyRun] + items + [AnyRun])
  {
    PercentItems();
    assert "%" + body + "%" == ['%'] + (body + "%");
    ItemsWildcard('%', body + "%");
    assert [AnyRun] + (items + [AnyRun]) == [AnyRun] + items + [AnyRun];
  }

  /** A pattern body followed by '%' reads as the body, then any run. */
  lemma PercentAfter(body: string, items: seq<PatternItem>)
    requires PatternItems(body + "%") == Append(items, PatternItems("%"))
    ensures PatternItems(body + "%") == Some(items + [AnyRun])
  {
    PercentItems();
  }

  /** A single-quoted SQL literal of x followed by t reads back as x, with
      t left over. */
  lemma LiteralReadsBack(x: string, t: string, l: string)
    requires t == [] || t[0] != '\''
    requires l == "'" + Replace(x, '\'', "''") + "'" + t
    ensures l[0] == '\''
    ensures ReadDelimited(l[1..], '\'') == Some((x, t))
  {
    var r := Replace(x, '\'', "''");
    assert l[1..] == r + "'" + t;
    ReadQuoted(x, '\'', t);
  }

  /** The string literal in like(s) reads back as "%" + AtEscapeEach(s) +
      "%", and the ESCAPE clause follows it. */
  lemma LikeReadsBack(s: string)
    ensures Like(s)[0] == '\''
    ensures ReadDelimited(Like(s)[1..], '\'') == Some(("%" + AtEscapeEach(s) + "%", " ESCAPE '@'"))
  {
    LikeLiteral(s);
    LiteralReadsBack("%" + AtEscapeEach(s) + "%", " ESCAPE '@'", Like(s));
  }

  /** What like(s) searches for, as written: the database reads the literal
      back as "%" + AtEscapeEach(s) + "%", and that pattern as any run, the
      items of AsWrittenItems(s), any run. */
  lemma LikePatternAsWritten(s: string)
    ensures Like(s)[0] == '\''
    ensures ReadDelimited(Like(s)[1..], '\'') == Some(("%" + AtEscapeEach(s) + "%", " ESCAPE '@'"))
    ensures PatternItems("%" + AtEscapeEach(s) + "%") == Some([AnyRun] + AsWrittenItems(s) + [AnyRun])
  {
    LikeReadsBack(s);
    AsWrittenPattern(s, "%");
    PercentAround(AtEscapeEach(s), AsWrittenItems(s));
  }

  /** The string literal in startswith(s) reads back as AtEscapeEach(s) +
      "%", and the ESCAPE clause follows it. */
  lemma StartsWithReadsBack(s: string)
    ensures StartsWith(s)[0] == '\''
    ensures ReadDelimited(StartsWith(s)[1..], '\'') == Some((AtEscapeEach(s) + "%", " ESCAPE '@'"))
  {
    StartsWithLiteral(s);
    LiteralReadsBack(AtEscapeEach(s) + "%", " ESCAPE '@'", StartsWith(s));
  }

  /** What startswith(s) searches for, as written: the literal reads back as
      AtEscapeEach(s) + "%", and that pattern as the items of
      AsWrittenItems(s), then any run. */
  lemma StartsWithPatternAsWritten(s: string)
    ensures StartsWith(s)[0] == '\''
    ensures ReadDelimited(StartsWith(s)[1..], '\'') == Some((AtEscapeEach(s) + "%", " ESCAPE '@'"))
    ensures PatternItems(AtEscapeEach(s) + "%") == Some(AsWrittenItems(s) + [AnyRun])
  {
    StartsWithReadsBack(s);
    AsWrittenPattern(s, "%");
    PercentAfter(AtEscapeEach(s), AsWrittenItems(s));
  }

  /** The discrepancy: searching for "_" yields a pattern that wants a
      literal '@' followed by any one character, not a literal '_'. */
  lemma LikeUnderscoreIsNotLiteral()
    ensures ReadDelimited(Like("_")[1..], '\'') == Some(("%@@_%", " ESCAPE '@'"))
    ensures PatternItems("%@@_%") == Some([AnyRun, Literal('@'), AnyChar, AnyRun])
    ensures PatternItems("%@@_%") != Some([AnyRun] + Literals("_") + [AnyRun])
  {
    LikePatternAsWritten("_");
    assert AtEscapeEach("_") == "@@_";
    assert AsWrittenItems("_") == [Literal('@'), AnyChar];
    assert "%" + AtEscapeEach("_") + "%" == "%@@_%";
    assert [AnyRun] + AsWrittenItems("_") + [AnyRun] == [AnyRun, Literal('@'), AnyChar, AnyRun];
  }

  /** The same discrepancy in startswith: searching for a "%" prefix yields
      a pattern that wants a literal '@' followed by any run. */
  lemma StartsWithPercentIsNotLiteral()
    ensures ReadDelimited(StartsWith("%")[1..], '\'') == Some(("@@%%", " ESCAPE '@'"))
    ensures PatternItems("@@%%") == Some([Literal('@'), AnyRun, AnyRun])
    ensures PatternItems("@@%%") != Some(Literals("%") + [AnyRun])
  {
    StartsWithPatternAsWritten("%");
    assert AtEscapeEach("%") == "@@%";
    assert AsWrittenItems("%") == [Literal('@'), AnyRun];
    assert AtEscapeEach("%") + "%" == "@@%%";
    assert AsWrittenItems("%") + [AnyRun] == [Literal('@'), AnyRun, AnyRun];
  }

  // ---------------------------------------------------------------------
  // The evidently intended escaping: '@' doubled first, so that the '@'
  // put in front of '_' and '%' stays a single escape character.

  function IntendedEscape(s: string): string {
    Replace(Replace(Replace(Replace(s, '@', "@@"), '\'', "''"), '_', "@_"), '%', "@%")
  }

  function IntendedChar(ch: char): string {
    if ch == '@' then "@@"
    else if ch == '_' then "@_"
    else if ch == '%' then "@%"
    else [ch]
  }

  function IntendedEach(s: string): string {
    if s == [] then [] else IntendedChar(s[0]) + IntendedEach(s[1..])
  }

  lemma IntendedOneChar(ch: char)
    ensures IntendedEscape([ch]) == Replace(IntendedChar(ch), '\'', "''")
  {
    var s1 := Replace([ch], '@', "@@");
    var s2 := Replace(s1, '\'', "''");
    var s3 := Replace(s2, '_', "@_");
    if ch == '@' {
      assert s1 == "@@" == s2 == s3;
    } else if ch == '_' {
      assert s1 == "_" == s2;
      assert s3 == "@_";
    } else if ch == '%' {
      assert s1 == "%" == s2 == s3;
    } else if ch == '\'' {
      assert s2 == "''" == s3;
    } else {
      assert s1 == [ch] == s2 == s3;
    }
  }

  lemma IntendedEscapeConcat(a: string, b: string)
    ensures IntendedEscape(a + b) == IntendedEscape(a) + IntendedEscape(b)
  {
    ReplaceConcat(a, b, '@', "@@");
    var a1, b1 := Replace(a, '@', "@@"), Replace(b, '@', "@@");
    ReplaceConcat(a1, b1, '\'', "''");
    var a2, b2 := Replace(a1, '\'', "''"), Replace(b1, '\'', "''");
    ReplaceConcat(a2, b2, '_', "@_");
    var a3, b3 := Replace(a2, '_', "@_"), Replace(b2, '_', "@_");
    ReplaceConcat(a3, b3, '%', "@%");
  }

  lemma {:induction false} IntendedEscapeSplits(s: string)
    ensures IntendedEscape(s) == Replace(IntendedEach(s), '\'', "''")
    decreases |s|
  {
    if s != [] {
      assert s == [s[0]] + s[1..];
      IntendedEscapeConcat([s[0]], s[1..]);
      IntendedOneChar(s[0]);
      IntendedEscapeSplits(s[1..]);
      ReplaceConcat(IntendedChar(s[0]), IntendedEach(s[1..]), '\'', "''");
    }
  }

  lemma {:induction false} IntendedPattern(s: string, tail: string)
    ensures PatternItems(IntendedEach(s) + tail) == Append(Literals(s), PatternItems(tail))
    decreases |s|
  {
    if s == [] {
      assert IntendedEach(s) + tail == tail;
      AppendNil(PatternItems(tail));
    } else {
      var rest := IntendedEach(s[1..]) + tail;
      var o := PatternItems(tail);
      IntendedPattern(s[1..], tail);
      var ch := s[0];
      if ch == '@' || ch == '_' || ch == '%' {
        assert IntendedEach(s) + tail == ['@', ch] + rest;
        ItemsEscaped(ch, rest);
      } else {
        assert IntendedEach(s) + tail == [ch] + rest;
        ItemsPlain(ch, rest);
      }
      AppendCons(Literal(ch), Literals(s[1..]), o);
    }
  }

  lemma IntendedLikeReads(s: string)
    ensures ReadDelimited(("'%" + IntendedEscape(s) + "%' ESCAPE '@'")[1..], '\'')
         == Some(("%" + IntendedEach(s) + "%", " ESCAPE '@'"))
  {
    var v := IntendedEach(s);
    var e := IntendedEscape(s);
    IntendedEscapeSplits(s);
    DoubleAround(v, e);
    WrapLike(e, "%" + e + "%");
    LiteralReadsBack("%" + v + "%", " ESCAPE '@'", "'%" + e + "%' ESCAPE '@'");
  }

  lemma IntendedStartsWithReads(s: string)
    ensures ReadDelimited(("'" + IntendedEscape(s) + "%' ESCAPE '@'")[1..], '\'')
         == Some((IntendedEach(s) + "%", " ESCAPE '@'"))
  {
    var v := IntendedEach(s);
    var e := IntendedEscape(s);
    IntendedEscapeSplits(s);
    DoubleAround(v, e);
    WrapStartsWith(e, e + "%");
    LiteralReadsBack(v + "%", " ESCAPE '@'", "'" + e + "%' ESCAPE '@'");
  }

  /** like with the intended escaping: the database reads the literal back
      as "%" + IntendedEach(s) + "%", and that pattern as any run, every
      character of `s` as a literal, any run. */
  function LikeIntended(s: string): (r: string)
    ensures |r| >= 1 && r[0] == '\''
    ensures ReadDelimited(r[1..], '\'') == Some(("%" + IntendedEach(s) + "%", " ESCAPE '@'"))
    ensures PatternItems("%" + IntendedEach(s) + "%") == Some([AnyRun] + Literals(s) + [AnyRun])
  {
    IntendedLikeReads(s);
    IntendedPattern(s, "%");
    PercentAround(IntendedEach(s), Literals(s));
    "'%" + IntendedEscape(s) + "%' ESCAPE '@'"
  }

  /** startswith with the intended escaping: the pattern is every character
      of `s` as a literal, then any run. */
  function StartsWithIntended(s: string): (r: string)
    ensures |r| >= 1 && r[0] == '\''
    ensures ReadDelimited(r[1..], '\'') == Some((IntendedEach(s) + "%", " ESCAPE '@'"))
    ensures PatternItems(IntendedEach(s) + "%") == Some(Literals(s) + [AnyRun])
  {
    IntendedStartsWithReads(s);
    IntendedPattern(s, "%");
    PercentAfter(IntendedEach(s), Literals(s));
    "'" + IntendedEscape(s) + "%' ESCAPE '@'"
  }
}

=== FILE: qtstring.dfy ===
/** A value that may be absent. */
module Optional {
  datatype Option<T> = None | Some(value: T)
}

/**
  The few QString and QStringList operations the SQL utilities are built
  from, over Dafny strings. Characters are modelled as Dafny `char`s;
  whitespace and upper-casing are restricted to ASCII.
 */
module QtString {

  /** A QString is either null or a (possibly empty) text. */
  datatype QStr = Null | Str(text: string)

  /** QString::replace(before, after) with a one-character `before`:
      every occurrence of `from`, scanned left to right, becomes `to`. */
  function Replace(s: string, from: char, to: string): (r: string)
    ensures from !in s ==> r == s
  {
    if s == [] then []
    else (if s[0] == from then to else [s[0]]) + Replace(s[1..], from, to)
  }

  /** Replacing distributes over concatenation: each character is handled
      on its own. */
  lemma {:induction false} ReplaceConcat(a: string, b: string, from: char, to: string)
    ensures Replace(a + b, from, to) == Replace(a, from, to) + Replace(b, from, to)
    decreases |a|
  {
    if a == [] {
      assert a + b == b;
    } else {
      assert (a + b)[0] == a[0];
      assert (a + b)[1..] == a[1..] + b;
      ReplaceConcat(a[1..], b, from, to);
    }
  }

  /** QStringList::join(sep): the items with `sep` between neighbours;
      the empty list joins to the empty text. */
  function Join(items: seq<string>, sep: string): (r: string)
    ensures |items| == 1 ==> r == items[0]
    ensures |items| == 0 ==> r == []
  {
    if |items| == 0 then []
    else if |items| == 1 then items[0]
    else items[0] + sep + Join(items[1..], sep)
  }

  /** QChar::isSpace restricted to ASCII: tab, line feed, vertical tab,
      form feed, carriage return and space. */
  predicate IsSpace(ch: char) {
    ch == ' ' || ('\t' <= ch <= '\r')
  }

  predicate AllSpace(s: string) {
    forall i :: 0 <= i < |s| ==> IsSpace(s[i])
  }

  /** QChar::toUpper restricted to ASCII. */
  function UpperChar(ch: char): (u: char)
    ensures 'a' <= ch <= 'z' ==> 'A' <= u <= 'Z'
    ensures !('a' <= ch <= 'z') ==> u == ch
    ensures IsSpace(u) <==> IsSpace(ch)
  {
    if 'a' <= ch <= 'z' then (ch as int - 'a' as int + 'A' as int) as char else ch
  }

  /** QString::toUpper, character by character. */
  function ToUpper(s: string): string {
    seq(|s|, i requires 0 <= i < |s| => UpperChar(s[i]))
  }

  lemma ToUpperSlice(s: string, a: int, b: int)
    requires 0 <= a <= b <= |s|
    ensures ToUpper(s[a..b]) == ToUpper(s)[a..b]
  {
  }

  /** Number of whitespace characters at the start of `s`. */
  function LeadingSpaces(s: string): (n: nat)
    ensures n <= |s|
    ensures AllSpace(s[..n])
    ensures n < |s| ==> !IsSpace(s[n])
  {
    if |s| > 0 && IsSpace(s[0]) then 1 + LeadingSpaces(s[1..]) else 0
  }

  /** Index at which the trailing whitespace of `s` begins. */
  function TrailingStart(s: string): (n: nat)
    ensures n <= |s|
    ensures AllSpace(s[n..])
    ensures n > 0 ==> !IsSpace(s[n - 1])
  {
    if |s| > 0 && IsSpace(s[|s| - 1]) then TrailingStart(s[..|s| - 1]) else |s|
  }

  /** QString::trimmed: `s` without whitespace at either end. */
  function Trimmed(s: string): (r: string)
    ensures |r| > 0 ==> !IsSpace(r[0]) && !IsSpace(r[|r| - 1])
    ensures |r| == 0 ==> AllSpace(s)
  {
    var a := LeadingSpaces(s);
    if a == |s| then
      assert s[..a] == s;
      []
    else
      s[a..TrailingStart(s)]
  }

  lemma SpaceAt(s: string, i: int)
    requires AllSpace(s)
    ensures 0 <= i < |s| ==> IsSpace(s[i])
  {
  }

  /** A text that is whitespace on both sides of a piece `r`, where `r`
      neither starts nor ends with whitespace, trims to exactly `r`. */
  lemma TrimmedUnique(s: string, r: string, a: int)
    requires 0 <= a <= |s| - |r|
    requires AllSpace(s[..a]) && s[a..a + |r|] == r && AllSpace(s[a + |r|..])
    requires |r| > 0 ==> !IsSpace(r[0]) && !IsSpace(r[|r| - 1])
    ensures Trimmed(s) == r
  {
    var n := LeadingSpaces(s);
    var e := a + |r|;
    if |r| == 0 {
      assert AllSpace(s) by {
        forall i | 0 <= i < |s| ensures IsSpace(s[i]) {
          if i < a { SpaceAt(s[..a], i); } else { SpaceAt(s[a..], i - a); }
        }
      }
      SpaceAt(s, n);
    } else {
      assert s[a] == r[0];
      assert s[e - 1] == r[|r| - 1];
      SpaceAt(s[..a], n);
      SpaceAt(s[..n], a);
      var t := TrailingStart(s);
      SpaceAt(s[t..], e - 1 - t);
      assert t <= e;
    }
  }

  /** Trimming ignores whitespace added around the text. */
  lemma TrimmedSurrounded(p: string, m: string, q: string)
    requires AllSpace(p) && AllSpace(q)
    ensures Trimmed(p + m + q) == Trimmed(m)
  {
    var s := p + m + q;
    var r := Trimmed(m);
    var a := LeadingSpaces(m);
    if |r| == 0 {
      assert s[..|s|] == s;
      assert AllSpace(s) by {
        forall i | 0 <= i < |s| ensures IsSpace(s[i]) {
          if i < |p| { SpaceAt(p, i); }
          else if i < |p| + |m| { SpaceAt(m, i - |p|); }
          else { SpaceAt(q, i - |p| - |m|); }
        }
      }
      assert s[|s|..] == [];
      TrimmedUnique(s, r, |s|);
    } else {
      var b := |p| + a;
      assert r == m[a..a + |r|];
      assert AllSpace(m[a + |r|..]) by {
        assert a + |r| == TrailingStart(m);
      }
      assert s[..b] == p + m[..a];
      assert s[b..b + |r|] == m[a..a + |r|];
      assert s[b + |r|..] == m[a + |r|..] + q;
      TrimmedUnique(s, r, b);
    }
  }

  /** QString::contains(w): `w` occurs somewhere in `s`. */
  predicate Contains(s: string, w: string)
    decreases |s|
  {
    w <= s || (|s| > 0 && Contains(s[1..], w))
  }

  /** `w` occurs in `s` starting at index `i`. */
  predicate OccursAt(s: string, w: string, i: int) {
    0 <= i && i + |w| <= |s| && s[i..i + |w|] == w
  }

  /** Every occurrence of `w` in `s` is found by the scan of Contains. */
  lemma {:induction false} OccursContains(s: string, w: string, i: int)
    requires OccursAt(s, w, i)
    ensures Contains(s, w)
    decreases i
  {
    if i == 0 {
      assert w <= s;
    } else {
      assert s[1..][i - 1..i - 1 + |w|] == s[i..i + |w|];
      OccursContains(s[1..], w, i - 1);
    }
  }

  /** The scan of Contains succeeds only where `w` occurs. */
  lemma {:induction false} ContainsOccurs(s: string, w: string) returns (i: int)
    requires Contains(s, w)
    ensures OccursAt(s, w, i)
    decreases |s|
  {
    if w <= s {
      assert s[0..|w|] == w;
      i := 0;
    } else {
      var j := ContainsOccurs(s[1..], w);
      assert s[j + 1..j + 1 + |w|] == s[1..][j..j + |w|];
      i := j + 1;
    }
  }

  /** A word that occurs at no index is not contained. */
  lemma NoOccurrence(s: string, w: string)
    requires forall i :: !OccursAt(s, w, i)
    ensures !Contains(s, w)
  {
    if Contains(s, w) {
      var i := ContainsOccurs(s, w);
    }
  }
}

=== FILE: quoting.dfy ===
/**
  Quoting of SQL identifiers: the three overloads of Utils::q. The text is
  wrapped in a delimiter and every delimiter inside it is doubled, which is
  how SQL spells a delimiter character inside a delimited token. The
  delimiter is one character ('"' for identifiers, '\'' for literals).
 */
module Quoting {
  import opened Optional
  import opened QtString

  /** Utils::q(s, c): `c`, then `s` with each `c` doubled, then `c`. */
  function Quote(s: string, c: char): (r: string)
    ensures |r| >= 2 && r[0] == c && r[|r| - 1] == c
    ensures Unquote(r, c) == Some(s)
  {
    ReadQuoted(s, c, []);
    assert ([c] + Replace(s, c, [c, c]) + [c])[1..] == Replace(s, c, [c, c]) + [c] + [];
    [c] + Replace(s, c, [c, c]) + [c]
  }

  /** Utils::q(s): an identifier in double quotes. */
  function QuoteIdent(s: string): (r: string)
    ensures |r| >= 2 && r[0] == '"' && r[|r| - 1] == '"'
    ensures Unquote(r, '"') == Some(s)
    ensures '"' !in s ==> r == "\"" + s + "\""
  {
    Quote(s, '"')
  }

  /** Utils::q(l, c): each item has its delimiters doubled, the items are
      joined with `c, c` between them, and the whole is wrapped in `c`. */
  function QuoteList(l: seq<string>, c: char): (r: string)
    ensures |r| >= 2 && r[0] == c && r[|r| - 1] == c
  {
    [c] + Join(DoubledAll(l, c), [c] + ", " + [c]) + [c]
  }

  /** The items of `l` with every `c` doubled. */
  function DoubledAll(l: seq<string>, c: char): (r: seq<string>)
    ensures |r| == |l|
    ensures forall i :: 0 <= i < |l| ==> r[i] == Replace(l[i], c, [c, c])
  {
    if l == [] then [] else [Replace(l[0], c, [c, c])] + DoubledAll(l[1..], c)
  }

  /** The items of `l`, each quoted on its own. */
  function QuoteAll(l: seq<string>, c: char): (r: seq<string>)
    ensures |r| == |l|
    ensures forall i :: 0 <= i < |l| ==> r[i] == Quote(l[i], c)
  {
    if l == [] then [] else [Quote(l[0], c)] + QuoteAll(l[1..], c)
  }

  /** A non-empty list comes out as its items quoted one by one and joined
      with ", "; the empty list comes out as an empty delimited token. */
  lemma {:induction false} QuoteListQuotesEachItem(l: seq<string>, c: char)
    ensures |l| > 0 ==> QuoteList(l, c) == Join(QuoteAll(l, c), ", ")
    ensures |l| == 0 ==> QuoteList(l, c) == [c, c]
    decreases |l|
  {
    if |l| >= 2 {
      QuoteListQuotesEachItem(l[1..], c);
      var d := Replace(l[0], c, [c, c]);
      var rest := Join(DoubledAll(l[1..], c), [c] + ", " + [c]);
      assert DoubledAll(l, c)[1..] == DoubledAll(l[1..], c);
      assert QuoteAll(l, c)[1..] == QuoteAll(l[1..], c);
      calc {
        QuoteList(l, c);
        [c] + (d + ([c] + ", " + [c]) + rest) + [c];
        ([c] + d + [c]) + ", " + ([c] + rest + [c]);
        Quote(l[0], c) + ", " + QuoteList(l[1..], c);
        Join(QuoteAll(l, c), ", ");
      }
    }
  }

  /** Puts `ch` in front of the token text of a successful read. */
  function Prepend(ch: char, o: Option<(string, string)>): Option<(string, string)> {
    match o
    case None => None
    case Some((t, rest)) => Some(([ch] + t, rest))
  }

  /** How SQL reads a delimited token once its opening delimiter `c` has been
      consumed: a doubled delimiter stands for one delimiter character and a
      single one closes the token. Gives the token's text and the input after
      the closing delimiter, or None when the input ends inside the token. */
  function ReadDelimited(x: string, c: char): Option<(string, string)>
    decreases |x|
  {
    if x == [] then None
    else if x[0] == c then
      if |x| >= 2 && x[1] == c then Prepend(c, ReadDelimited(x[2..], c))
      else Some(([], x[1..]))
    else Prepend(x[0], ReadDelimited(x[1..], c))
  }

  /** Decoder for Utils::q: reads one delimited token that spans the whole
      text. */
  function Unquote(r: string, c: char): (o: Option<string>)
  {
    if |r| > 0 && r[0] == c then
      match ReadDelimited(r[1..], c)
      case Some((s, rest)) => if rest == [] then Some(s) else None
      case None => None
    else None
  }

  /** The doubled text followed by a closing delimiter reads back as exactly
      `s`, leaving whatever follows untouched, unless what follows starts
      with another delimiter (which would pair up with the closing one). */
  lemma {:induction false} ReadQuoted(s: string, c: char, t: string)
    requires t == [] || t[0] != c
    ensures ReadDelimited(Replace(s, c, [c, c]) + [c] + t, c) == Some((s, t))
    decreases |s|
  {
    var x := Replace(s, c, [c, c]) + [c] + t;
    if s == [] {
      assert x == [c] + t;
      assert x[1..] == t;
    } else {
      ReadQuoted(s[1..], c, t);
      var y := Replace(s[1..], c, [c, c]) + [c] + t;
      if s[0] == c {
        assert x == [c, c] + y;
        assert x[2..] == y;
      } else {
        assert x == [s[0]] + y;
        assert x[1..] == y;
      }
      assert [s[0]] + s[1..] == s;
    }
  }

  /** Replacing in a text that starts with `ch`. */
  lemma ReplaceCons(ch: char, rest: string, from: char, to: string)
    ensures Replace([ch] + rest, from, to) == (if ch == from then to else [ch]) + Replace(rest, from, to)
  {
    assert ([ch] + rest)[1..] == rest;
  }

  /** One step of reading back: the text `x` starts with `p`, which encodes
      the character `ch`, and the rest of `x` encodes `s'`. */
  lemma InverseStep(x: string, p: string, ch: char, c: char, s': string, t: string)
    requires p == (if ch == c then [c, c] else [ch])
    requires |p| <= |x| && x[..|p|] == p
    requires x[|p|..] == Replace(s', c, [c, c]) + [c] + t
    ensures x == Replace([ch] + s', c, [c, c]) + [c] + t
  {
    ReplaceCons(ch, s', c, [c, c]);
    assert x == x[..|p|] + x[|p|..];
  }

  /** Conversely, whatever reads as a token is the doubled text of that
      token, its closing delimiter, and a rest not starting with `c`. */
  lemma {:induction false} ReadDelimitedInverse(x: string, c: char, s: string, t: string)
    requires ReadDelimited(x, c) == Some((s, t))
    ensures x == Replace(s, c, [c, c]) + [c] + t
    ensures t == [] || t[0] != c
    decreases |x|
  {
    if x[0] == c && |x| >= 2 && x[1] == c {
      var o := ReadDelimited(x[2..], c);
      assert o.Some?;
      var s', t' := o.value.0, o.value.1;
      ReadDelimitedInverse(x[2..], c, s', t');
      assert s == [c] + s' && t == t';
      InverseStep(x, [c, c], c, c, s', t');
    } else if x[0] == c {
      assert s == [] && t == x[1..];
      assert x == [c] + x[1..];
    } else {
      var o := ReadDelimited(x[1..], c);
      assert o.Some?;
      var s', t' := o.value.0, o.value.1;
      ReadDelimitedInverse(x[1..], c, s', t');
      assert s == [x[0]] + s' && t == t';
      InverseStep(x, [x[0]], x[0], c, s', t');
    }
  }

  /** Unquote and Quote are inverse: a text decodes to `s` exactly when it is
      the quoting of `s`. */
  lemma QuoteUnquoteInverse(r: string, s: string, c: char)
    ensures Unquote(r, c) == Some(s) <==> r == Quote(s, c)
  {
    if Unquote(r, c) == Some(s) {
      var Some((s', t')) := ReadDelimited(r[1..], c);
      ReadDelimitedInverse(r[1..], c, s', t');
      assert r == [c] + r[1..];
    }
  }

  /** A quoted token is safe to splice into statement text: the SQL reader
      recovers exactly `s` and resumes right after the token, for any
      following text that does not begin with the delimiter itself. */
  lemma QuotedTokenIsSelfDelimiting(s: string, c: char, t: string)
    requires t == [] || t[0] != c
    ensures (Quote(s, c) + t)[0] == c
    ensures ReadDelimited((Quote(s, c) + t)[1..], c) == Some((s, t))
  {
    ReadQuoted(s, c, t);
    assert (Quote(s, c) + t)[1..] == Replace(s, c, [c, c]) + [c] + t;
  }
}
